=== FILE: README.md ===
# PicoImg request and decode rules in Dafny

PicoImg is an Android image loader. A `PicoImgRequest` names an input: a
resource id, an asset or a URL. `runAsync` submits the request. It derives
a RAM key and answers at once from the RAM cache when it can. Otherwise it
registers the request and runs `run` on a worker. The worker:

- links the request behind an in-flight request with the same input, or
- resolves the disk cache, downloads into it, decodes and stores the
  result in the RAM cache.

The publish branch of `run` then delivers the result or the error and
removes the request from the registry. Decoding a still bitmap goes through
`BaseState`, which picks a power-of-two sample size from the target size
(`scaleToTarget`). `BaseState` also undoes that choice when the platform
decoder ignored it, and swaps the axes for rotated EXIF orientations
(codes 5 to 8 of the `Orientation` tag, tag 0x0112, section 4.6.4 of EXIF 2.3).

The model keeps the branches of these operations and leaves out the platform. The decoder,
the EXIF reader, the stream openers, the HTTP response, the SQLite insert,
the file rename and the arrival of `cancel()` are inputs:

- a function `decode` from sample size to output for `BaseState`, and
- the `WorkEnv` and `UrlEnv` records for `run`.

Requests live in an arena (`seq<Request>`). The registry `sRequests` is a
sequence of arena indices in iteration order. `mLinkNext` is an optional
index. The disk cache is an index holding:

- the `cache` table as a map from entry name to row,
- the set of file names present in the cache directory,
- the running total, the limit, and the temporary-id counter.

Java `int` arithmetic is written out where it matters (module `JavaInt`):

- `/` truncates toward zero;
- `1 << n` masks its count to 5 bits, so `1 << 31` is `Integer.MIN_VALUE`;
- `>>` is floor division by a power of two.

The loop guard of `scaleToTarget` is evaluated in that arithmetic. The
shift never passes 30. At 30, the wrapped divisor `1 << 31` makes both
quotients 0, and the loop stops exactly where the mathematical guard would.

Modules: `Wrappers` (Option, Result), `JavaInt`, `DecodePolicy`
(`BaseState`), `Requests` (the request record, constructors, setters, keys),
`RamCache`, `DiskCache`, `Download`, `Registry` (linking pass, chains),
`Pipeline` (`run`, `runAsync`, publish) and `Scenarios` (whole runs).

### Where the code and its description disagree (the model follows the code)

The pipeline uses the disk-cache commit and the download step as written,
including the refresh of an existing row and the kept file of a failed
re-download, both listed under Findings below; the corrected versions are
stated and proved on their own.

- A zero target does not disable downsampling. With target 0 by 100 on a
  1000 by 1000 bitmap the positive axis drives the loop to shift 3, because
  0 is below every non-zero quotient (`DecodePolicy.ZeroTargetStillShifts`).
- A cancelled download that received exactly the advertised bytes is
  accepted by the download checks. It is committed to the disk cache.
  Then the cancellation check ahead of decoding (PicoImgRequest.java:423)
  throws, so nothing is delivered. Publish reports a cancellation to a
  callback instead (`Scenarios.CancelledCompleteDownloadIsCachedNotDelivered`).
- A follower is not handed its leader's result. When the leader finishes it
  calls the follower's `run` again (lines 473-474). The linking pass is
  already done, so the follower checks the RAM cache and, on a miss, does
  the whole job again (`Scenarios.FollowerServedFromRam`,
  `Scenarios.FollowerMissDoesItsOwnWork`).
- A URL request whose key was set to `""` by `cacheKey` loses its key in
  `generateRamKey`. The worker then calls `hashCode()` on `null`
  (line 300). The throw is captured like any other error (`NullInputKey`).
- The running total of the disk cache grows by the bytes received even when
  the row insert failed and the file is later deleted
  (`DiskCache.TotalCountsUnregisteredBytes`).
- An input key that itself ends in `#noanim` shares its RAM key with the
  animated-disabled variant of the shorter key (`Requests.RamKeysCanCollide`).

## Model

| member | source | states |
|---|---|---|
| JavaInt.ShlOne | picoimg/src/main/java/in/cpp/picoimg/BaseState.java:65 | `1 << n` as Java computes it: `2^n` for counts 0..30, `Integer.MIN_VALUE` for 31, never 0 |
| JavaInt.IntToStringRoundTrip | picoimg/src/main/java/in/cpp/picoimg/PicoImgRequest.java:81 | the decimal text of `"#" + resId` parses back to `resId`, sign included |
| JavaInt.IntToStringInjective | picoimg/src/main/java/in/cpp/picoimg/PicoImgRequest.java:81 | different ids have different decimal texts |
| DecodePolicy.LeastShiftFrom | picoimg/src/main/java/in/cpp/picoimg/BaseState.java:115-117 | the `while` loop from a shift that passed the guard: it stops by 30, at a shift where the guard fails, and every shift it passed satisfied the guard |
| DecodePolicy.ScaleToTarget | picoimg/src/main/java/in/cpp/picoimg/BaseState.java:113-120 | the shift is at most 30, fails the guard, every smaller shift passes it, and the dimensions are the inputs divided by `2^shift` |
| DecodePolicy.ShiftIsBounded | picoimg/src/main/java/in/cpp/picoimg/BaseState.java:116 | a positive shift fits: `2^shift` is at most the width (with a non-negative width target) and the height (with a non-negative height target) |
| DecodePolicy.KeepHalvingIsExact | picoimg/src/main/java/in/cpp/picoimg/BaseState.java:116 | the Java guard with its masked shift and truncating division is the mathematical guard `tw < w / 2^(k+1) && th < h / 2^(k+1)` at every shift the loop tests |
| DecodePolicy.ScaleToTargetIsLeast | picoimg/src/main/java/in/cpp/picoimg/BaseState.java:116-117 | the chosen shift is the least at which halving once more reaches a target, stated with exact powers of two |
| DecodePolicy.ShiftKeepsAboveTarget | picoimg/src/main/java/in/cpp/picoimg/BaseState.java:116-119 | after a positive shift both shifted dimensions are still above their targets |
| DecodePolicy.ScaleExample | picoimg/src/main/java/in/cpp/picoimg/BaseState.java:113-120 | 1000 by 1000 aimed at 100 by 100 gives shift 3 and 125 by 125 |
| DecodePolicy.ZeroTargetStillShifts | picoimg/src/main/java/in/cpp/picoimg/BaseState.java:116 | a zero target with a positive other target still shifts (1000 by 1000 at 0 by 100 gives 3) |
| DecodePolicy.OrientIsInvolution | picoimg/src/main/java/in/cpp/picoimg/BaseState.java:99-104 | the orientation swap undone by itself restores the stored dimensions |
| DecodePolicy.RequestedShift | picoimg/src/main/java/in/cpp/picoimg/BaseState.java:39-46 | with a positive target the shift is the one `scaleToTarget` chooses on the probed dimensions: the guard fails at it and passes at every smaller shift; without one it is 0; it never exceeds 30 |
| DecodePolicy.NewBaseState | picoimg/src/main/java/in/cpp/picoimg/BaseState.java:32-111 | a state exists iff the decode at sample size `2^shift` produced a bitmap ("Wrong image format" otherwise); without a positive target sample size 1 and shift 0; the stored shift is the requested one unless the decoder returned the probed full width, when it is 0; the orientation is the EXIF code when readable, else 0; width and height are swapped exactly for codes 5..8 |
| DecodePolicy.HonouringDecoderKeepsShift | picoimg/src/main/java/in/cpp/picoimg/BaseState.java:39-73 | with a positive target and a decoder that divides both dimensions by the sample size, the state is built, keeps the shift `scaleToTarget` chose and has its predicted dimensions, oriented by the EXIF code |
| Requests.ForResource | picoimg/src/main/java/in/cpp/picoimg/PicoImgRequest.java:77-82 | a fresh request with every cache enabled, keyed `"#"` followed by the id in decimal |
| Requests.ForAsset | picoimg/src/main/java/in/cpp/picoimg/PicoImgRequest.java:84-89 | a fresh request keyed by the asset name |
| Requests.ForUrl | picoimg/src/main/java/in/cpp/picoimg/PicoImgRequest.java:91-96 | a fresh request keyed by the URL |
| Requests.ResourceKeysDistinct | picoimg/src/main/java/in/cpp/picoimg/PicoImgRequest.java:77-82 | two different resource ids never share an input key |
| Requests.SettersOnlyRecordOptions | picoimg/src/main/java/in/cpp/picoimg/PicoImgRequest.java:98-135 | the builder setters set exactly their own options and leave the source, keys, progress and cache switches unchanged |
| Requests.CacheKey | picoimg/src/main/java/in/cpp/picoimg/PicoImgRequest.java:187-191 | the input key becomes the given one, `null` included; nothing else changes |
| Requests.SkipCache | picoimg/src/main/java/in/cpp/picoimg/PicoImgRequest.java:193-200 | each cache switch becomes the negation of its skip flag; the other options are unchanged |
| Requests.GenerateRamKey | picoimg/src/main/java/in/cpp/picoimg/PicoImgRequest.java:555-565 | an empty input key becomes null and gives no RAM key; otherwise the RAM key is the input key, with `#noanim` appended exactly when animation is disabled |
| Requests.ConfigureKeys | picoimg/src/main/java/in/cpp/picoimg/PicoImgRequest.java:245-247 | keys are generated only for a present input key and an absent RAM key; the rest of the request is untouched |
| Requests.ConfigureKeysIdempotent | picoimg/src/main/java/in/cpp/picoimg/PicoImgRequest.java:481-483 | configuring keys a second time (in `run` after `runAsync`) changes nothing |
| Requests.RamKeyInjective | picoimg/src/main/java/in/cpp/picoimg/PicoImgRequest.java:561-563 | for input keys not ending in `#noanim`, equal RAM keys mean equal input keys and equal animation settings, and conversely |
| Requests.RamKeysCanCollide | picoimg/src/main/java/in/cpp/picoimg/PicoImgRequest.java:561-563 | `u#noanim` animated and `u` with animation disabled share a RAM key |
| Requests.RamKeyOfBuiltRequest | picoimg/src/main/java/in/cpp/picoimg/PicoImgRequest.java:187-191 | after `cacheKey(key)`, the RAM key is derived from `key` (suffixed when animation is off), or absent for `null` or `""` |
| Requests.DefaultRamKeys | picoimg/src/main/java/in/cpp/picoimg/PicoImgRequest.java:77-96 | without `cacheKey`, the RAM key derives from `"#"` plus the resource id, the asset name or the URL; an empty URL gives none |
| RamCache.Lookup | picoimg/src/main/java/in/cpp/picoimg/PicoImgRequest.java:570-581 | a hit iff the entry exists, is not cleared and serves the size: full-size states always, downsampled ones only when at least as large as a named size |
| RamCache.CheckRamCache | picoimg/src/main/java/in/cpp/picoimg/PicoImgRequest.java:567-582 | a hit becomes the result; a miss leaves the request unchanged |
| RamCache.Store | picoimg/src/main/java/in/cpp/picoimg/PicoImgRequest.java:439-440 | the key now holds the state; every other entry is unchanged |
| RamCache.StoreThenLookup | picoimg/src/main/java/in/cpp/picoimg/PicoImgRequest.java:439-440 | a stored state is found again exactly by the requests it serves |
| RamCache.NativeRequestNeedsFullSize | picoimg/src/main/java/in/cpp/picoimg/PicoImgRequest.java:578 | a request with no size is served only by a full-size state |
| RamCache.ServesSmaller | picoimg/src/main/java/in/cpp/picoimg/PicoImgRequest.java:578 | a state that serves a size serves every smaller named size |
| RamCache.ScaledStateServesItsTarget | picoimg/src/main/java/in/cpp/picoimg/BaseState.java:113-120 | a state downsampled by `scaleToTarget` for a target serves a later request for that target |
| Download.Classify | picoimg/src/main/java/in/cpp/picoimg/PicoImgRequest.java:342-364 | a non-200 status fails first; a cancelled download fails as cancelled when it received nothing or not the advertised length; otherwise an advertised length that was not met is a size mismatch; success carries the byte count |
| Download.CompleteDownloadAccepted | picoimg/src/main/java/in/cpp/picoimg/PicoImgRequest.java:361-364 | a download of exactly its advertised length is accepted, cancelled or not |
| Download.CancellationRace | picoimg/src/main/java/in/cpp/picoimg/PicoImgRequest.java:361-362 | a cancelled download is accepted iff it received the advertised, non-zero byte count; with no advertised length it is always a cancellation |
| Download.UnknownLengthAccepted | picoimg/src/main/java/in/cpp/picoimg/PicoImgRequest.java:363 | without cancellation, an unadvertised length accepts any byte count |
| DiskCache.Resolve | picoimg/src/main/java/in/cpp/picoimg/PicoImgRequest.java:300-325 | the row is consulted only with disk lookup or store; the file is reused iff lookup is on, the row's size is not 0 and its file exists; with no row the id is the negated, incremented counter; a missing directory is an error |
| DiskCache.TempIdsAreFresh | picoimg/src/main/java/in/cpp/picoimg/PicoImgRequest.java:317-318 | two resolutions in a row never hand out the same temporary id |
| DiskCache.Touch | picoimg/src/main/java/in/cpp/picoimg/PicoImgRequest.java:328-333 | reusing a row updates only its timestamp |
| DiskCache.InsertDownload | picoimg/src/main/java/in/cpp/picoimg/PicoImgRequest.java:373-397 | a row is inserted only when the insert returned an id; the file takes the row id when insert and rename worked; the total grows by the bytes received either way; cleanup is due iff the limit is positive and reached |
| DiskCache.CommitDownloadAsWritten | picoimg/src/main/java/in/cpp/picoimg/PicoImgRequest.java:366-400 | as written: a download into an existing row changes only that row's timestamp, keeps its size, the files and the total, and never asks for cleanup; under a temporary id the total grows by the bytes received, a row `(insertId, received, now)` is added iff the insert returned an id, the file takes the row id iff insert and rename worked, and cleanup is due iff a positive limit is reached |
| DiskCache.RefetchedEmptyRowStaysUnusable | picoimg/src/main/java/in/cpp/picoimg/PicoImgRequest.java:400 | as written, a size-0 row fetched again keeps size 0 and is still not reused by the next lookup |
| DiskCache.CommitDownload | picoimg/src/main/java/in/cpp/picoimg/PicoImgRequest.java:366-400 | corrected: an existing row becomes `(id, received, now)` and the total trades the row's old size for the bytes received, so cleanup is checked for refreshes too; a temporary id goes through the insert as written |
| DiskCache.CommitsAgreeOnNewRows | picoimg/src/main/java/in/cpp/picoimg/PicoImgRequest.java:373-397 | the correction changes nothing for a download under a temporary id |
| DiskCache.DropTempFile | picoimg/src/main/java/in/cpp/picoimg/PicoImgRequest.java:456-457 | a file still under a negative id is removed, nothing else changes |
| DiskCache.CommitThenResolve | picoimg/src/main/java/in/cpp/picoimg/PicoImgRequest.java:305-400 | a committed download of non-zero size, new or refreshed, is reused by the next lookup under its row id |
| DiskCache.TotalCountsUnregisteredBytes | picoimg/src/main/java/in/cpp/picoimg/PicoImgRequest.java:378-389 | when the insert fails the total still grows, no row is written and the file is dropped |
| Registry.FirstLeader | picoimg/src/main/java/in/cpp/picoimg/PicoImgRequest.java:255-270 | the first registry position, from a start, whose request can lead: same non-null key, pass done, no follower, not done; none before it can |
| Registry.LinkingPass | picoimg/src/main/java/in/cpp/picoimg/PicoImgRequest.java:250-275 | a not-yet-linked request links onto the first eligible registered request iff one exists; only that request's `linkNext` changes; the request has done its pass; the registry is kept in order with the request appended at the end when it was not already there |
| Registry.LinkingPassKeepsChains | picoimg/src/main/java/in/cpp/picoimg/PicoImgRequest.java:259-267 | a first linking pass keeps the chain well formed: links lead to linked requests and no request follows two |
| Registry.ChainsDependOnLinks | picoimg/src/main/java/in/cpp/picoimg/PicoImgRequest.java:64-67 | the chain's well-formedness depends only on the link fields |
| Registry.RemoveFirst | picoimg/src/main/java/in/cpp/picoimg/PicoImgRequest.java:237 | a registry without the request is returned unchanged; otherwise exactly its first occurrence is cut out and the others keep their order; one occurrence leaves the multiset, and a request registered once is gone |
| Pipeline.FetchUrl | picoimg/src/main/java/in/cpp/picoimg/PicoImgRequest.java:300-416 | an unreachable directory is an error and leaves rows and files alone; a reusable entry (lookup on, size not 0, file present) is used under its row id with only its timestamp refreshed; cache-only without a reusable entry changes no row or file and fails iff the entry's file is missing; otherwise the download's classification decides: a failure leaves rows, files and total alone, a success stored under a new key inserts per the insert's outcome and grows the total by the bytes received, one into an existing row only refreshes its timestamp; after a 200 response the files gain the final id and lose the temporary one only when the file was renamed, and no other file appears or disappears; the temporary-id counter advances by one exactly when no row was found |
| Pipeline.DownloadTo | picoimg/src/main/java/in/cpp/picoimg/PicoImgRequest.java:340-400 | a non-200 status fails with the index and id untouched; after a 200 the file exists under the written id, which is renamed to the inserted row id only when disk store is on, the id was temporary and insert and rename worked; a failed classification leaves rows and total alone; a success follows the commit as written; the temporary-id counter is untouched |
| Pipeline.DownloadToDiscarding | picoimg/src/main/java/in/cpp/picoimg/PicoImgRequest.java:343-364 | corrected: a download that fails after a 200 response deletes the file it was writing and leaves rows, total and id alone; in every other case it is the step as written |
| Pipeline.FailedDownloadIsNotReused | picoimg/src/main/java/in/cpp/picoimg/PicoImgRequest.java:305-325 | with the corrected step, an existing entry whose re-download failed loses its file, so the next lookup does not reuse it |
| Pipeline.OpenSource | picoimg/src/main/java/in/cpp/picoimg/PicoImgRequest.java:292-421 | a resource id or non-empty asset is opened without the index and fails iff its stream does not open; otherwise a non-empty URL with a null key fails as `NullInputKey`, and with a key has exactly `FetchUrl`'s index, id, failure and cleanup, plus a cancellation that arrived during the download; nothing to read is `NoInputStream`; an earlier cancellation is kept |
| Pipeline.DecodeOutcome | picoimg/src/main/java/in/cpp/picoimg/PicoImgRequest.java:419-436 | a failure to open wins, then a cancellation, then the decoder's answer |
| Pipeline.Record | picoimg/src/main/java/in/cpp/picoimg/PicoImgRequest.java:432-447 | a decoded state becomes the result; an error is recorded only when a callback exists |
| Pipeline.StoreResult | picoimg/src/main/java/in/cpp/picoimg/PicoImgRequest.java:439-440 | the RAM cache changes only by storing a decoded state under the RAM key with RAM store on |
| Pipeline.CloseCacheFile | picoimg/src/main/java/in/cpp/picoimg/PicoImgRequest.java:456-457 | a file still under a temporary id is deleted and every other file, the rows, the total and the temporary-id counter are kept; with no cache file the index is untouched |
| Pipeline.DoWork | picoimg/src/main/java/in/cpp/picoimg/PicoImgRequest.java:286-458 | only result, error and cancellation change on the request; the RAM cache changes only by storing the new result under the RAM key; the error changes only for a callback; an earlier cancellation is kept and a cancelled run keeps its result; a non-URL source leaves the index alone |
| Pipeline.DoWorkFollowsOpen | picoimg/src/main/java/in/cpp/picoimg/PicoImgRequest.java:286-458 | the disk rows, total, temporary-id counter and cleanup are the opened source's and the files are too, less a file still under a temporary id; when it opened, was not cancelled and decoded, the decoded state is the result and is stored in RAM iff RAM store is on with a RAM key; an open failure, a cancellation or a decode failure leaves result and RAM alone and becomes the error iff a callback exists |
| Pipeline.DoWorkIgnoresLinks | picoimg/src/main/java/in/cpp/picoimg/PicoImgRequest.java:286-458 | the work reads nothing of the request but its source, keys, options and earlier outcome: the link fields do not change what it does |
| Pipeline.RamHit | picoimg/src/main/java/in/cpp/picoimg/PicoImgRequest.java:282-283 | the RAM check is made only with RAM lookup on and a RAM key, and then is the cache lookup for the request's size |
| Pipeline.Finish | picoimg/src/main/java/in/cpp/picoimg/PicoImgRequest.java:281-474 | a RAM hit or an existing result is kept as the result, with error and cancellation unchanged, without touching caches or asking for cleanup; otherwise result, error, cancellation, caches and cleanup are those of `DoWork`; source, keys, options and the drawable flag are kept; only the request itself changes, it is done, its link fields are kept, and it hands over to its follower |
| Pipeline.RunWork | picoimg/src/main/java/in/cpp/picoimg/PicoImgRequest.java:245-474 | the run stops iff its first pass linked it, and then only the link flags change on the request and the caches are untouched; otherwise it is done, names its follower, and after configuring keys and checking the RAM cache either keeps a hit or an existing result (error, cancellation and caches unchanged, no cleanup) or has exactly `DoWork`'s result, error, cancellation, caches and cleanup; source, keys and options are the configured ones and the drawable flag is kept; only a new leader's link changes elsewhere; a first run appends the request to the registry if absent and keeps the rest in order, a re-run keeps the registry |
| Pipeline.FirstRun | picoimg/src/main/java/in/cpp/picoimg/PicoImgRequest.java:248-474 | the first run of a configured request: the registry gains the request at the end if absent; a linked request stops with only its link flags set; otherwise it finishes as a re-run would, with the same RAM check and work |
| Pipeline.PublishedProgress | picoimg/src/main/java/in/cpp/picoimg/PicoImgRequest.java:213-228 | a delivered result gets a drawable; a cancellation becomes the callback's error unless one was set |
| Pipeline.ShownEffects | picoimg/src/main/java/in/cpp/picoimg/PicoImgRequest.java:213-225 | a result is shown iff not cancelled and present, faded only with a view; a result callback iff shown with a callback; the view is cleared iff nothing was shown, nothing drawn and no placeholder |
| Pipeline.PublishEffects | picoimg/src/main/java/in/cpp/picoimg/PicoImgRequest.java:211-232 | as above, and the error callback comes last, exactly when an error and a callback exist |
| Pipeline.DeliversAppend | picoimg/src/main/java/in/cpp/picoimg/PicoImgRequest.java:230-232 | appending the error report neither adds nor hides a delivery |
| Pipeline.Publish | picoimg/src/main/java/in/cpp/picoimg/PicoImgRequest.java:211-241 | the registry is the old one with the first occurrence of the request cut out, the rest in order; the request's progress is the published one and the effects are the publish effects; nothing else in the world changes |
| Pipeline.Submit | picoimg/src/main/java/in/cpp/picoimg/PicoImgRequest.java:477-526 | it schedules iff the configured request has no RAM hit and no result; otherwise the request is done with the hit (or its result) and the fade collapsed to 1 unless forced, and stays unregistered; a scheduled request is appended to the registry and only gains a drawable flag when its view is prepared on the main thread; every other field is the configured request's; the effects are exactly the cancellation of the view's earlier requests when there is a view, then, only when scheduled, the view preparation; caches and other requests are untouched |
| Pipeline.Admit | picoimg/src/main/java/in/cpp/picoimg/PicoImgRequest.java:494-524 | a configured request with a RAM hit or a result is served at once (hit as result, fade collapsed unless forced, done); otherwise it is scheduled and only its drawable flag may change; the effects are the view cancellation when there is a view followed, only when scheduled, by the view preparation |
| Pipeline.ViewPreparation | picoimg/src/main/java/in/cpp/picoimg/PicoImgRequest.java:508-516 | on the main thread with a view: a drawable of the resize size when both are positive, else the placeholder if set, else nothing; nothing off the main thread or without a view; never a cancellation |
| Scenarios.RamHitIsPublishedAtOnce | picoimg/src/main/java/in/cpp/picoimg/PicoImgRequest.java:494-506 | a RAM hit at submission is shown with the collapsed fade, with a result callback iff one exists |
| Scenarios.FollowerServedFromRam | picoimg/src/main/java/in/cpp/picoimg/PicoImgRequest.java:281-283 | a re-run follower takes a still-cached state without touching the disk index |
| Scenarios.FollowerMissDoesItsOwnWork | picoimg/src/main/java/in/cpp/picoimg/PicoImgRequest.java:282-458 | a re-run follower whose RAM check misses (RAM lookup off, no RAM key, or no serving entry) does the whole job again with its own options |
| Scenarios.CancelledCompleteDownloadIsCachedNotDelivered | picoimg/src/main/java/in/cpp/picoimg/PicoImgRequest.java:361-424 | a complete download cancelled during the pump is committed, but no result is delivered and a callback gets a cancellation |
| Scenarios.FailedRefetchIsReused | picoimg/src/main/java/in/cpp/picoimg/PicoImgRequest.java:305-364 | as written, with disk lookup off and disk store on, a failed re-download into an existing non-empty entry keeps its row and file, so a later lookup reuses that file |
| Scenarios.RunWorkKeepsChains | picoimg/src/main/java/in/cpp/picoimg/PicoImgRequest.java:250-474 | the worker branch keeps the chain well formed, and the follower it hands over to is linked |
| Scenarios.FirstRunKeepsChains | picoimg/src/main/java/in/cpp/picoimg/PicoImgRequest.java:248-474 | a first run keeps the chain well formed, and the follower it hands over to is linked |

## Findings

| source | as written | input that shows it | evidently intended | confidence | as-written member | corrected member |
|---|---|---|---|---|---|---|
| picoimg/src/main/java/in/cpp/picoimg/PicoImgRequest.java:400 | a download into an existing row updates only the `used` column, so a row of size 0 (never fully fetched, never reused by line 311) stays at size 0 after a complete fetch | a row for the key with size 0 whose file exists, disk lookup and store on, a 200 response of 10 bytes: after the commit the row still has size 0 and the next lookup downloads again | the refresh records the fetched size, as the insert of a new row does at line 377, and the running total replaces the row's old size with the new one, so the next lookup reuses the file and the total keeps counting the cached bytes | medium, not executed | DiskCache.CommitDownloadAsWritten, DiskCache.RefetchedEmptyRowStaysUnusable | DiskCache.CommitDownload, DiskCache.CommitThenResolve |
| picoimg/src/main/java/in/cpp/picoimg/PicoImgRequest.java:347 | a 200 response opens the entry's file for writing, which empties it, before the download checks run; when they then fail (size mismatch or cancellation, lines 361-364) the file is kept because its id is not temporary (lines 456-457), and the row keeps its non-zero size | disk lookup off, disk store on, an existing row of size 10 whose file exists, a 200 response advertising 10 bytes that delivers 4: the file now holds 4 bytes and the next request with disk lookup on reuses it (lines 311, 324) | a download that fails after its file was opened leaves no file behind under the entry's id, so the entry is fetched again | medium, not executed | Scenarios.FailedRefetchIsReused | Pipeline.DownloadToDiscarding, Pipeline.FailedDownloadIsNotReused |

## Left out

- Bitmap decoding, EXIF reading and the stream mark/reset/reopen: the decoder is the `decode` input to `DecodePolicy.NewBaseState`, and the EXIF outcome is an input (`Exif`).
- `PNGState` and `GIFState`: they are not part of this model. Their result and the decoder's failures are the `decoded` field of `WorkEnv`.
- The HTTP connection, timeouts, the byte pump and progress callbacks: the response is given by status, advertised length and bytes received (`UrlEnv`).
- SQLite queries, updates and the `initDB` recovery after a database exception: the table is a map, and one row per entry name is assumed. The failure of an insert (-1) and of the rename are inputs. A throwing database call is not modelled.
- `PicoImg.cleanupCache`, `cycleDrawable`, `cancel(view)`, `sExecutor`, `sHandler`: `PicoImg.java` and `PicoDrawable.java` are not part of this model. Their calls appear only as effects (`Effect`) or the `cleanup` flag.
- Threads, `Looper` reposting, `synchronized` and `volatile`: the linking pass, a worker run and a publish are atomic steps. `cancel()` is a flag value in the environment at the points where `run` reads it.
- `SoftReference` reclamation: an entry is either `Held` or `Cleared`.
- `sizeToView`, `sizeToScreen`, `scale`, `setAppId`/`setAppObj`, the getters and `toString`: they depend on the view or display, or carry no rule.
- Drawables and views: publishing produces effects, and the drawable's fade and constant state are not modelled.
- File contents: the index records only which files exist, not their bytes. A file rewritten by a failed download therefore looks as usable as a complete one; the consequence is the second Findings row.
- 32-bit overflow of the byte counters and the running total: these are unbounded integers.
- The int-to-`String` conversion of `cacheKey` for file names: a file is named by its id.
- Pipeline.DoWork: the decoder's answer (`WorkEnv.decoded`) is a free input; it is not tied to `DecodePolicy.NewBaseState` or to the request's resize target, so the contract says nothing about which state a decode yields.
- The setters `To`, `Callback`, `Placeholder`, `Fade`, `Size`, `DisableAnimation` and `CachedOnly` have no contract of their own. They are covered by `Requests.SettersOnlyRecordOptions`.

=== FILE: decode_policy.dfy ===
/**
 * The decode sizing policy of `BaseState`: the power-of-two downsample shift
 * chosen by `scaleToTarget`, the constructor's correction of that shift when
 * the platform decoder ignored it, and the width/height swap for the rotated
 * values of the TIFF/EXIF `Orientation` tag (tag 0x0112, section 4.6.4 of
 * EXIF 2.3). Decoding itself is a parameter: the model asks it for a sample
 * size and reads back whether a bitmap came out and at which size.
 */
module DecodePolicy {
  import opened Wrappers
  import opened JavaInt

  /**
   * The guard of the `scaleToTarget` loop at shift `s`, in Java `int`
   * arithmetic: the dimensions divided by `1 << (s + 1)` are still larger
   * than the targets on both axes.
   */
  predicate KeepHalving(w: int, h: int, tw: int, th: int, s: nat) {
    tw < Div(w, ShlOne(s + 1)) && th < Div(h, ShlOne(s + 1))
  }

  /** The same guard over the mathematical integers, for non-negative dimensions. */
  predicate HalvingFits(w: nat, h: nat, tw: int, th: int, k: nat) {
    tw < w / Pow2(k + 1) && th < h / Pow2(k + 1)
  }

  /** Passing the guard at shift `s` means a non-negative target's axis holds at least `2^(s+1)` pixels. */
  lemma HalvingBoundsDimension(w: int, h: int, tw: int, th: int, s: nat)
    requires s <= 29
    requires KeepHalving(w, h, tw, th, s)
    ensures tw >= 0 ==> Pow2(s + 1) <= w
    ensures th >= 0 ==> Pow2(s + 1) <= h
  {
    var p := Pow2(s + 1);
    assert ShlOne(s + 1) == p;
    BelowDivisorQuotient(w, p);
    BelowDivisorQuotient(h, p);
  }

  /** A value below a positive divisor has a quotient of at most 0. */
  lemma BelowDivisorQuotient(a: int, p: int)
    requires p > 0
    ensures a < p ==> Div(a, p) <= 0
  {
    if a < 0 {
      NonNegativeQuotient(Abs(a), p);
    } else if a < p {
      assert a / p == 0;
    }
  }

  lemma NonNegativeQuotient(x: nat, p: int)
    requires p > 0
    ensures x / p >= 0
  {
  }

  /**
   * At shift 30 the guard computes `1 << 31`, which wraps to `MinInt`. The
   * wrap is harmless: a run that got that far has a dimension of at least
   * `2^30`, which divided by `MinInt` truncates to 0, so the guard fails.
   */
  lemma HalvingStopsAt30(w: int, h: int, tw: int, th: int)
    requires IsInt(w) && IsInt(h)
    requires tw >= 0 || th >= 0
    requires KeepHalving(w, h, tw, th, 29)
    ensures !KeepHalving(w, h, tw, th, 30)
  {
    HalvingBoundsDimension(w, h, tw, th, 29);
    Pow2Of30();
    assert ShlOne(31) == MinInt;
    if tw >= 0 {
      assert Div(w, MinInt) == 0;
    } else {
      assert Div(h, MinInt) == 0;
    }
  }

  /** The loop of `scaleToTarget` from shift `s` on: the first shift at which the guard fails. */
  function LeastShiftFrom(w: int, h: int, tw: int, th: int, s: nat): (r: nat)
    requires IsInt(w) && IsInt(h)
    requires tw >= 0 || th >= 0
    requires s <= 30
    requires s == 0 || KeepHalving(w, h, tw, th, s - 1)
    ensures s <= r <= 30
    ensures !KeepHalving(w, h, tw, th, r)
    ensures forall k :: s <= k < r ==> KeepHalving(w, h, tw, th, k)
    ensures r > 0 ==> KeepHalving(w, h, tw, th, r - 1)
    decreases 30 - s
  {
    if s == 30 then
      HalvingStopsAt30(w, h, tw, th);
      s
    else if KeepHalving(w, h, tw, th, s) then
      var r := LeastShiftFrom(w, h, tw, th, s + 1);
      assert forall k :: s + 1 <= k < r ==> KeepHalving(w, h, tw, th, k);
      r
    else
      s
  }

  /** The shift chosen by `scaleToTarget` and the dimensions it leaves behind. */
  datatype Scaled = Scaled(shift: nat, width: int, height: int)

  /**
   * `scaleToTarget(targetWidth, targetHeight)` on a bitmap of `w` by `h`:
   * the least shift at which halving once more would bring an axis down to
   * its target, and the dimensions shifted right by it. The caller only runs
   * it with a positive target; the loop terminates as soon as one target is
   * not negative.
   */
  function ScaleToTarget(w: int, h: int, tw: int, th: int): (r: Scaled)
    requires IsInt(w) && IsInt(h)
    requires tw >= 0 || th >= 0
    ensures r.shift <= 30
    ensures !KeepHalving(w, h, tw, th, r.shift)
    ensures forall k :: 0 <= k < r.shift ==> KeepHalving(w, h, tw, th, k)
    ensures r.width == w / Pow2(r.shift) && r.height == h / Pow2(r.shift)
  {
    var s := LeastShiftFrom(w, h, tw, th, 0);
    Scaled(s, Shr(w, s), Shr(h, s))
  }

  /** A positive shift is paid for by the pixels: `2^shift` fits in each axis with a non-negative target. */
  lemma ShiftIsBounded(w: int, h: int, tw: int, th: int)
    requires IsInt(w) && IsInt(h)
    requires tw >= 0 || th >= 0
    ensures var s := ScaleToTarget(w, h, tw, th).shift;
      s > 0 ==> (tw >= 0 ==> Pow2(s) <= w) && (th >= 0 ==> Pow2(s) <= h)
  {
    var s := ScaleToTarget(w, h, tw, th).shift;
    if s > 0 {
      assert KeepHalving(w, h, tw, th, s - 1);
      HalvingBoundsDimension(w, h, tw, th, s - 1);
    }
  }

  /** For non-negative dimensions the Java guard is the mathematical one at every shift the loop can test. */
  lemma KeepHalvingIsExact(w: nat, h: nat, tw: int, th: int, k: nat)
    requires w <= MaxInt && h <= MaxInt
    requires k <= 30
    ensures KeepHalving(w, h, tw, th, k) <==> HalvingFits(w, h, tw, th, k)
  {
    Pow2Of30();
    if k == 30 {
      assert ShlOne(31) == MinInt;
      assert Div(w, MinInt) == 0 == w / Pow2(31);
      assert Div(h, MinInt) == 0 == h / Pow2(31);
    } else {
      assert ShlOne(k + 1) == Pow2(k + 1);
    }
  }

  /**
   * The chosen shift is the least one at which halving once more would
   * reach a target: every smaller shift passes the guard, the chosen one
   * fails it.
   */
  lemma ScaleToTargetIsLeast(w: nat, h: nat, tw: int, th: int)
    requires w <= MaxInt && h <= MaxInt
    requires tw >= 0 || th >= 0
    ensures var s := ScaleToTarget(w, h, tw, th).shift;
      && !HalvingFits(w, h, tw, th, s)
      && forall k :: 0 <= k < s ==> HalvingFits(w, h, tw, th, k)
  {
    var s := ScaleToTarget(w, h, tw, th).shift;
    KeepHalvingIsExact(w, h, tw, th, s);
    forall k | 0 <= k < s
      ensures HalvingFits(w, h, tw, th, k)
    {
      KeepHalvingIsExact(w, h, tw, th, k);
    }
  }

  /** Downsampling never goes below the target: a shifted bitmap is still larger than each target. */
  lemma ShiftKeepsAboveTarget(w: nat, h: nat, tw: int, th: int)
    requires w <= MaxInt && h <= MaxInt
    requires tw >= 0 || th >= 0
    ensures var r := ScaleToTarget(w, h, tw, th);
      r.shift > 0 ==> tw < r.width && th < r.height
  {
    var r := ScaleToTarget(w, h, tw, th);
    if r.shift > 0 {
      ScaleToTargetIsLeast(w, h, tw, th);
      assert HalvingFits(w, h, tw, th, r.shift - 1);
    }
  }

  /** A 1000 by 1000 bitmap aimed at 100 by 100 is decoded at shift 3, as 125 by 125. */
  lemma ScaleExample()
    ensures ScaleToTarget(1000, 1000, 100, 100) == Scaled(3, 125, 125)
  {
    var r := ScaleToTarget(1000, 1000, 100, 100);
    assert ShlOne(1) == 2 && ShlOne(2) == 4 && ShlOne(3) == 8 && ShlOne(4) == 16;
    assert Div(1000, 2) == 500 && Div(1000, 4) == 250 && Div(1000, 8) == 125 && Div(1000, 16) == 62;
    assert KeepHalving(1000, 1000, 100, 100, 0);
    assert KeepHalving(1000, 1000, 100, 100, 1);
    assert KeepHalving(1000, 1000, 100, 100, 2);
    assert !KeepHalving(1000, 1000, 100, 100, 3);
    assert Pow2(3) == 8;
  }

  /**
   * A zero target does not switch shifting off: with target 0 by 100 the
   * positive axis drives the loop, since 0 is below every non-zero quotient.
   */
  lemma ZeroTargetStillShifts()
    ensures ScaleToTarget(1000, 1000, 0, 100).shift == 3
  {
    assert ShlOne(1) == 2 && ShlOne(2) == 4 && ShlOne(3) == 8 && ShlOne(4) == 16;
    assert Div(1000, 2) == 500 && Div(1000, 4) == 250 && Div(1000, 8) == 125 && Div(1000, 16) == 62;
    assert KeepHalving(1000, 1000, 0, 100, 0);
    assert KeepHalving(1000, 1000, 0, 100, 1);
    assert KeepHalving(1000, 1000, 0, 100, 2);
    assert !KeepHalving(1000, 1000, 0, 100, 3);
  }

  /** The rotated orientations, 5 to 8, of the EXIF `Orientation` tag. */
  predicate IsRotated(code: int) {
    5 <= code <= 8
  }

  /** Width and height as displayed: swapped for a rotated orientation. */
  function Orient(width: int, height: int, code: int): (int, int) {
    if IsRotated(code) then (height, width) else (width, height)
  }

  /** Orienting twice with the same code gives back the stored dimensions. */
  lemma OrientIsInvolution(width: int, height: int, code: int)
    ensures var (w', h') := Orient(width, height, code); Orient(w', h', code) == (width, height)
  {
  }

  /** What the bounds probe (`inJustDecodeBounds`) reports: `outWidth`, `outHeight`. */
  datatype Bounds = Bounds(width: int, height: int)

  /** What the full decode reports: whether a bitmap came out, and `outWidth`, `outHeight`. */
  datatype Decoded = Decoded(hasBitmap: bool, width: int, height: int)

  /** The orientation read from the cached file: no cached file (not a URL source), a tag value, or a read failure. */
  datatype Exif = NoCacheFile | Orientation(code: int) | Unreadable

  /** A decoded still image: `mWidth`, `mHeight`, `mScaleShift`, `mOrientation`. */
  datatype ImageState = ImageState(width: int, height: int, scaleShift: int, orientation: int)

  datatype DecodeError = WrongImageFormat

  /** The shift requested from the decoder: computed only when a target is positive. */
  function RequestedShift(probe: Bounds, tw: int, th: int): (s: nat)
    requires IsInt(probe.width) && IsInt(probe.height)
    ensures s <= 30
    ensures tw <= 0 && th <= 0 ==> s == 0
    ensures tw > 0 || th > 0 ==> s == ScaleToTarget(probe.width, probe.height, tw, th).shift
    ensures tw > 0 || th > 0 ==>
      && !KeepHalving(probe.width, probe.height, tw, th, s)
      && forall k :: 0 <= k < s ==> KeepHalving(probe.width, probe.height, tw, th, k)
  {
    if tw > 0 || th > 0 then ScaleToTarget(probe.width, probe.height, tw, th).shift else 0
  }

  /**
   * The constructor `BaseState(inp, targetWidth, targetHeight, ...)` with
   * the bitmap decoder as `decode`, taking `inSampleSize`. The width the
   * probe saw is remembered (`origWidth`, 0 when nothing was probed); a
   * decoder that returns that full width despite a positive shift has
   * ignored the sample size, so the shift is reset to 0.
   */
  function NewBaseState(probe: Bounds, tw: int, th: int, decode: int -> Decoded, exif: Exif): (r: Result<ImageState, DecodeError>)
    requires IsInt(probe.width) && IsInt(probe.height)
    ensures var s := RequestedShift(probe, tw, th);
      && (r.Success? <==> decode(Pow2(s)).hasBitmap)
      && (r.Success? ==> 0 <= r.value.scaleShift <= s)
      && (r.Success? && r.value.scaleShift != s ==> (tw > 0 || th > 0) && decode(Pow2(s)).width == probe.width)
      && (r.Success? && s > 0 && decode(Pow2(s)).width == probe.width ==> r.value.scaleShift == 0)
    ensures tw <= 0 && th <= 0 ==> (r.Success? <==> decode(1).hasBitmap) && (r.Success? ==> r.value.scaleShift == 0)
    ensures r.Success? ==> r.value.orientation == (if exif.Orientation? then exif.code else 0)
    ensures r.Success? ==> var out := decode(Pow2(RequestedShift(probe, tw, th)));
      (r.value.width, r.value.height) == (if IsRotated(r.value.orientation) then (out.height, out.width) else (out.width, out.height))
  {
    var origWidth := if tw > 0 || th > 0 then probe.width else 0;
    var shift := RequestedShift(probe, tw, th);
    var out := decode(ShlOne(shift));
    var corrected := if shift > 0 && out.width == origWidth then 0 else shift;
    if !out.hasBitmap then
      Failure(WrongImageFormat)
    else
      var orientation := if exif.Orientation? then exif.code else 0;
      var (w, h) := Orient(out.width, out.height, orientation);
      Success(ImageState(w, h, corrected, orientation))
  }

  /** A positive width shrinks under any divisor of at least 2. */
  lemma QuotientShrinks(x: int, d: int)
    requires x > 0 && d >= 2
    ensures x / d < x
  {
    assert x / d * d <= x;
  }

  /**
   * With a decoder that honours `inSampleSize` (it divides both probed
   * dimensions by it), the state keeps the shift `scaleToTarget` chose and
   * the dimensions it predicted, oriented by the EXIF code: the
   * full-width reset only fires for a decoder that ignored the sample size.
   */
  lemma {:induction false} HonouringDecoderKeepsShift(probe: Bounds, tw: int, th: int, decode: int -> Decoded, exif: Exif)
    requires IsInt(probe.width) && IsInt(probe.height)
    requires probe.width > 0 && probe.height >= 0
    requires tw > 0 || th > 0
    requires forall p :: p >= 1 ==> decode(p) == Decoded(true, probe.width / p, probe.height / p)
    ensures var sc := ScaleToTarget(probe.width, probe.height, tw, th);
      var r := NewBaseState(probe, tw, th, decode, exif);
      && r.Success?
      && r.value.scaleShift == sc.shift
      && r.value.orientation == (if exif.Orientation? then exif.code else 0)
      && (r.value.width, r.value.height) == Orient(sc.width, sc.height, r.value.orientation)
  {
    var sc := ScaleToTarget(probe.width, probe.height, tw, th);
    var out := decode(Pow2(sc.shift));
    assert out == Decoded(true, sc.width, sc.height);
    if sc.shift > 0 {
      assert Pow2(sc.shift) >= 2 by { assert Pow2(sc.shift) == 2 * Pow2(sc.shift - 1); }
      QuotientShrinks(probe.width, Pow2(sc.shift));
    }
  }
}

=== FILE: disk_cache.dfy ===
/**
 * The disk cache as `run` sees it: the `cache` table as a map from the
 * entry name (the input key; the hash column is only an index over it) to
 * its row, the set of file names present in the cache directory (each a
 * decimal entry id), the running total `sCacheSize`, the limit
 * `sCacheLimit` and the counter `sID` behind temporary ids.
 */
module DiskCache {
  import opened Wrappers
  import opened Requests

  /** A row of the `cache` table: `id`, `size` (0 marks an unusable entry), `used` (seconds). */
  datatype Row = Row(id: int, size: int, used: int)

  datatype Index = Index(rows: map<string, Row>, files: set<int>, total: int, limit: int, lastTempId: nat)

  /** Row ids come from SQLite inserts that returned a non-negative id. */
  predicate RowIdsValid(ix: Index) {
    forall name :: name in ix.rows ==> ix.rows[name].id >= 0
  }

  /** No file is left behind under a temporary (negative) id. */
  predicate NoTempFiles(ix: Index) {
    forall id :: id in ix.files ==> id >= 0
  }

  /** Where a URL request's bytes go: the entry id naming the cache file, and whether that file may be reused. */
  datatype Slot = Slot(cacheKey: int, useCached: bool)

  /** The slot, the index with its temporary-id counter advanced, or the directory error. */
  datatype Resolution = Resolution(index: Index, cacheKey: int, slot: Result<Slot, Error>)

  /**
   * The disk-cache lookup of `run`'s URL branch: query the table only when disk lookup or disk
   * store is enabled (storing needs to know about an existing row so it does
   * not create a second one); reuse the row's file only when lookup is
   * enabled, the row's size is not 0 and the file exists; with no row, take
   * a fresh negative id. The cache directory must exist or be creatable.
   */
  function Resolve(ix: Index, key: string, diskLookup: bool, diskStore: bool, dirOk: bool): (r: Resolution)
    requires RowIdsValid(ix)
    ensures r.index.rows == ix.rows && r.index.files == ix.files
    ensures r.index.total == ix.total && r.index.limit == ix.limit
    ensures r.cacheKey < 0 <==> !((diskLookup || diskStore) && key in ix.rows)
    ensures r.cacheKey >= 0 ==> r.cacheKey == ix.rows[key].id && r.index.lastTempId == ix.lastTempId
    ensures r.cacheKey < 0 ==> r.index.lastTempId == ix.lastTempId + 1 && r.cacheKey == -(r.index.lastTempId as int)
    ensures r.slot.Failure? <==> !dirOk
    ensures r.slot.Failure? ==> r.slot.error == CacheDirUnavailable
    ensures r.slot.Success? ==> r.slot.value.cacheKey == r.cacheKey
    ensures r.slot.Success? ==> (r.slot.value.useCached <==>
      diskLookup && key in ix.rows && ix.rows[key].size != 0 && ix.rows[key].id in ix.files)
  {
    var found := (diskLookup || diskStore) && key in ix.rows;
    var rowKey := if found then ix.rows[key].id else -1;
    var useCached := found && diskLookup && ix.rows[key].size != 0;
    var ix1 := if rowKey == -1 then ix.(lastTempId := ix.lastTempId + 1) else ix;
    var cacheKey := if rowKey == -1 then -(ix1.lastTempId as int) else rowKey;
    if !dirOk then Resolution(ix1, cacheKey, Failure(CacheDirUnavailable))
    else Resolution(ix1, cacheKey, Success(Slot(cacheKey, useCached && cacheKey in ix.files)))
  }

  /** Two resolutions in a row never hand out the same temporary id. */
  lemma TempIdsAreFresh(ix: Index, k1: string, k2: string, l1: bool, s1: bool, d1: bool, l2: bool, s2: bool, d2: bool)
    requires RowIdsValid(ix)
    ensures var r1 := Resolve(ix, k1, l1, s1, d1);
      var r2 := Resolve(r1.index, k2, l2, s2, d2);
      r1.cacheKey < 0 && r2.cacheKey < 0 ==> r1.cacheKey != r2.cacheKey
  {
  }

  /** Reusing an entry: the `used` timestamp of its row becomes now. */
  function Touch(ix: Index, key: string, now: int): (ix': Index)
    requires key in ix.rows
    ensures ix'.rows.Keys == ix.rows.Keys
    ensures ix'.rows[key] == ix.rows[key].(used := now)
    ensures forall k :: k in ix.rows && k != key ==> ix'.rows[k] == ix.rows[k]
    ensures ix'.files == ix.files && ix'.total == ix.total && ix'.limit == ix.limit && ix'.lastTempId == ix.lastTempId
  {
    ix.(rows := ix.rows[key := ix.rows[key].(used := now)])
  }

  /** The outcome of registering a download: the index, the entry id the file now has, whether cleanup is due. */
  datatype Commit = Commit(index: Index, cacheKey: int, cleanup: bool)

  /**
   * Registering a download under a temporary id: it inserts a row
   * (`insertId` is what the insert returned, -1 on failure) and renames the
   * file to the row's id when that worked; the running total grows by the
   * bytes received whether or not the insert and rename worked, and cleanup
   * is due once a positive limit is reached.
   */
  function InsertDownload(ix: Index, key: string, cacheKey: int, received: int, now: int, insertId: int, renameOk: bool): (c: Commit)
    requires cacheKey < 0 && key !in ix.rows && cacheKey in ix.files
    ensures c.cacheKey in c.index.files
    ensures c.index.limit == ix.limit && c.index.lastTempId == ix.lastTempId
    ensures c.index.total == ix.total + received
    ensures insertId >= 0 ==> c.index.rows == ix.rows[key := Row(insertId, received, now)]
    ensures insertId < 0 ==> c.index.rows == ix.rows
    ensures c.cacheKey == (if insertId >= 0 && renameOk then insertId else cacheKey)
    ensures c.cacheKey != cacheKey ==> c.index.files == ix.files - {cacheKey} + {insertId}
    ensures c.cacheKey == cacheKey ==> c.index.files == ix.files
    ensures c.cleanup <==> ix.limit > 0 && c.index.total >= ix.limit
  {
    var inserted := if insertId >= 0 then ix.rows[key := Row(insertId, received, now)] else ix.rows;
    var renamed := insertId >= 0 && renameOk;
    var files := if renamed then ix.files - {cacheKey} + {insertId} else ix.files;
    var total := ix.total + received;
    Commit(ix.(rows := inserted, files := files, total := total),
           if renamed then insertId else cacheKey,
           ix.limit > 0 && total >= ix.limit)
  }

  /**
   * Registering a download with disk store on, as written: a temporary id
   * goes through the insert; a download into an existing row only refreshes
   * its timestamp, so the row keeps the size it had and the total is not
   * touched.
   */
  function CommitDownloadAsWritten(ix: Index, key: string, cacheKey: int, received: int, now: int, insertId: int, renameOk: bool): (c: Commit)
    requires cacheKey >= 0 ==> key in ix.rows && ix.rows[key].id == cacheKey
    requires cacheKey < 0 ==> key !in ix.rows
    requires cacheKey in ix.files
    ensures c.cacheKey in c.index.files
    ensures c.index.limit == ix.limit && c.index.lastTempId == ix.lastTempId
    ensures cacheKey >= 0 ==>
      && c.index.rows == ix.rows[key := ix.rows[key].(used := now)]
      && c.index.files == ix.files && c.index.total == ix.total
      && c.cacheKey == cacheKey && !c.cleanup
    ensures cacheKey < 0 ==> c.index.total == ix.total + received
    ensures cacheKey < 0 && insertId >= 0 ==> c.index.rows == ix.rows[key := Row(insertId, received, now)]
    ensures cacheKey < 0 && insertId < 0 ==> c.index.rows == ix.rows
    ensures cacheKey < 0 ==> c.cacheKey == (if insertId >= 0 && renameOk then insertId else cacheKey)
    ensures c.cacheKey != cacheKey ==> c.index.files == ix.files - {cacheKey} + {insertId}
    ensures c.cacheKey == cacheKey ==> c.index.files == ix.files
    ensures c.cleanup <==> cacheKey < 0 && ix.limit > 0 && c.index.total >= ix.limit
  {
    if cacheKey < 0 then InsertDownload(ix, key, cacheKey, received, now, insertId, renameOk)
    else Commit(Touch(ix, key, now), cacheKey, false)
  }

  /**
   * A row of size 0 marks an entry that was never fully fetched. Fetched
   * again into the same row, it keeps size 0 as written, so the next lookup
   * still refuses to reuse it and every later request downloads again.
   */
  lemma RefetchedEmptyRowStaysUnusable(ix: Index, key: string, received: int, now: int)
    requires RowIdsValid(ix)
    requires key in ix.rows && ix.rows[key].size == 0 && ix.rows[key].id in ix.files
    requires received > 0
    ensures var c := CommitDownloadAsWritten(ix, key, ix.rows[key].id, received, now, -1, true);
      RowIdsValid(c.index) && c.index.rows[key].size == 0 &&
      Resolve(c.index, key, true, true, true).slot == Success(Slot(ix.rows[key].id, false))
  {
  }

  /**
   * Registering a download with disk store on, corrected: a download into
   * an existing row also records the size just fetched, as the insert of a
   * new row does, and the total trades the row's old size for the new one.
   * A temporary id goes through the insert as written.
   */
  function CommitDownload(ix: Index, key: string, cacheKey: int, received: int, now: int, insertId: int, renameOk: bool): (c: Commit)
    requires cacheKey >= 0 ==> key in ix.rows && ix.rows[key].id == cacheKey
    requires cacheKey < 0 ==> key !in ix.rows
    requires cacheKey in ix.files
    ensures c.cacheKey in c.index.files
    ensures c.index.limit == ix.limit && c.index.lastTempId == ix.lastTempId
    ensures cacheKey < 0 ==> c.index.total == ix.total + received
    ensures cacheKey < 0 && insertId >= 0 ==> c.index.rows == ix.rows[key := Row(insertId, received, now)]
    ensures cacheKey < 0 && insertId < 0 ==> c.index.rows == ix.rows
    ensures c.cacheKey == (if cacheKey < 0 && insertId >= 0 && renameOk then insertId else cacheKey)
    ensures c.cacheKey != cacheKey ==> c.index.files == ix.files - {cacheKey} + {insertId}
    ensures c.cacheKey == cacheKey ==> c.index.files == ix.files
    ensures cacheKey >= 0 ==> c.index.rows == ix.rows[key := Row(cacheKey, received, now)]
    ensures cacheKey >= 0 ==> c.index.total == ix.total - ix.rows[key].size + received
    ensures c.cleanup <==> ix.limit > 0 && c.index.total >= ix.limit
  {
    if cacheKey < 0 then InsertDownload(ix, key, cacheKey, received, now, insertId, renameOk)
    else
      var total := ix.total - ix.rows[key].size + received;
      Commit(ix.(rows := ix.rows[key := Row(cacheKey, received, now)], total := total), cacheKey,
             ix.limit > 0 && total >= ix.limit)
  }

  /**
   * A committed download of a non-zero size is reused by the next lookup
   * under its row id, whether the row was new (and the insert and rename
   * worked) or refreshed.
   */
  lemma CommitThenResolve(ix: Index, key: string, cacheKey: int, received: int, now: int, insertId: int)
    requires RowIdsValid(ix)
    requires cacheKey >= 0 ==> key in ix.rows && ix.rows[key].id == cacheKey
    requires cacheKey < 0 ==> key !in ix.rows && insertId >= 0
    requires cacheKey in ix.files && received != 0
    ensures var c := CommitDownload(ix, key, cacheKey, received, now, insertId, true);
      RowIdsValid(c.index) &&
      Resolve(c.index, key, true, true, true).slot == Success(Slot(c.cacheKey, true))
  {
  }

  /** The correction touches only refreshed rows: for a temporary id both commits agree. */
  lemma CommitsAgreeOnNewRows(ix: Index, key: string, cacheKey: int, received: int, now: int, insertId: int, renameOk: bool)
    requires cacheKey < 0 && key !in ix.rows && cacheKey in ix.files
    ensures CommitDownload(ix, key, cacheKey, received, now, insertId, renameOk)
         == CommitDownloadAsWritten(ix, key, cacheKey, received, now, insertId, renameOk)
  {
  }

  /** The `cacheFile.delete()` at the end of `run`: a file still under a temporary id is removed. */
  function DropTempFile(ix: Index, cacheKey: int): (ix': Index)
    ensures cacheKey < 0 ==> cacheKey !in ix'.files
    ensures ix'.files == (if cacheKey < 0 then ix.files - {cacheKey} else ix.files)
    ensures ix'.rows == ix.rows && ix'.total == ix.total && ix'.limit == ix.limit && ix'.lastTempId == ix.lastTempId
  {
    if cacheKey < 0 then ix.(files := ix.files - {cacheKey}) else ix
  }

  /**
   * The running total counts bytes that are not in the cache: when the
   * insert fails the total still grows, and the file is later dropped as a
   * temporary one.
   */
  lemma TotalCountsUnregisteredBytes(ix: Index, key: string, cacheKey: int, received: int, now: int)
    requires cacheKey < 0 && key !in ix.rows && cacheKey in ix.files
    ensures var c := CommitDownloadAsWritten(ix, key, cacheKey, received, now, -1, true);
      && c.index.total == ix.total + received
      && c.index.rows == ix.rows
      && c.cacheKey !in DropTempFile(c.index, c.cacheKey).files
  {
  }
}

=== FILE: download.dfy ===
/**
 * How `run` classifies a finished download: the response status, the
 * advertised content length (-1 when unknown), the bytes actually received
 * and the cancellation flag as read after the byte pump stopped.
 */
module Download {
  import opened Wrappers
  import opened Requests

  const HttpOk: int := 200

  /** The checks after the byte pump, in the order the download checks them; success carries the byte count to commit. */
  function Classify(status: int, contentLength: int, received: int, cancelled: bool): (r: Result<int, Error>)
    ensures r.Success? ==> r.value == received
    ensures r.Success? ==> status == HttpOk
    ensures r.Success? ==> contentLength <= 0 || contentLength == received
    ensures r.Success? && cancelled ==> received != 0 && received == contentLength
    ensures r == Failure(Cancelled) ==> cancelled
    ensures status != HttpOk ==> r == Failure(BadStatus(status))
    ensures r.Failure? && r.error.SizeMismatch? ==> !cancelled && r.error == SizeMismatch(contentLength, received)
    ensures status == HttpOk && cancelled && (received == 0 || received != contentLength) ==> r == Failure(Cancelled)
    ensures status == HttpOk && !cancelled && contentLength > 0 && received != contentLength ==>
      r == Failure(SizeMismatch(contentLength, received))
    ensures status == HttpOk && !cancelled && (contentLength <= 0 || received == contentLength) ==> r == Success(received)
    ensures status == HttpOk && cancelled && received != 0 && received == contentLength ==> r == Success(received)
  {
    if status != HttpOk then Failure(BadStatus(status))
    else if cancelled && (received == 0 || contentLength != received) then Failure(Cancelled)
    else if contentLength > 0 && contentLength != received then Failure(SizeMismatch(contentLength, received))
    else Success(received)
  }

  /** Every complete, uncancelled or cancelled, download of an advertised length is accepted. */
  lemma CompleteDownloadAccepted(contentLength: int, cancelled: bool)
    requires contentLength > 0
    ensures Classify(HttpOk, contentLength, contentLength, cancelled) == Success(contentLength)
  {
  }

  /**
   * Cancellation racing completion: a cancelled download that nonetheless
   * received exactly the advertised bytes is accepted; one that received
   * less, or whose length was not advertised, is a cancellation.
   */
  lemma CancellationRace(contentLength: int, received: int)
    requires received >= 0
    ensures Classify(HttpOk, contentLength, received, true).Success?
      <==> received > 0 && received == contentLength
    ensures contentLength < 0 ==> Classify(HttpOk, contentLength, received, true) == Failure(Cancelled)
  {
  }

  /** Without cancellation, a download of unknown length is accepted whatever it received. */
  lemma UnknownLengthAccepted(received: int)
    ensures Classify(HttpOk, -1, received, false) == Success(received)
  {
  }
}

=== FILE: java_int.dfy ===
/**
 * The few pieces of Java `int` semantics the model needs: the 32-bit range,
 * `/` truncating toward zero, `1 << n` with its five-bit shift distance,
 * `>>` as a floor division, and `Integer.toString` for keys.
 */
module JavaInt {

  const MinInt: int := -0x8000_0000
  const MaxInt: int := 0x7fff_ffff

  predicate IsInt(x: int) {
    MinInt <= x <= MaxInt
  }

  function Pow2(n: nat): (r: nat)
    ensures r >= 1
  {
    if n == 0 then 1 else 2 * Pow2(n - 1)
  }

  lemma {:induction false} Pow2Monotone(a: nat, b: nat)
    requires a <= b
    ensures Pow2(a) <= Pow2(b)
    decreases b
  {
    if a < b {
      Pow2Monotone(a, b - 1);
    }
  }

  lemma {:induction false} Pow2Add(a: nat, b: nat)
    ensures Pow2(a + b) == Pow2(a) * Pow2(b)
    decreases a
  {
    if a > 0 {
      Pow2Add(a - 1, b);
    }
  }

  lemma Pow2Of30()
    ensures Pow2(30) == 0x4000_0000
    ensures Pow2(31) == 0x8000_0000
  {
    assert Pow2(10) == 1024;
    Pow2Add(10, 10);
    Pow2Add(20, 10);
  }

  function Abs(x: int): nat {
    if x < 0 then -x else x
  }

  /** Java's `a / b` on `int`: the quotient truncated toward zero; `MinInt / -1` wraps to `MinInt`. */
  function Div(a: int, b: int): int
    requires b != 0
  {
    if a == MinInt && b == -1 then MinInt
    else if (a < 0) == (b < 0) then Abs(a) / Abs(b)
    else -(Abs(a) / Abs(b))
  }

  /** Java's `1 << n` on `int`: only the low five bits of `n` count, and bit 31 is the sign bit. */
  function ShlOne(n: int): (r: int)
    ensures IsInt(r) && r != 0
    ensures 0 <= n <= 30 ==> r == Pow2(n)
    ensures n == 31 ==> r == MinInt
  {
    var d := n % 32;
    if d == 31 then MinInt
    else
      Pow2Monotone(d, 30);
      Pow2Of30();
      Pow2(d)
  }

  /** Java's `a >> n` on `int` for a shift distance below 32: an arithmetic shift, that is, division rounding down. */
  function Shr(a: int, n: nat): int
    requires n < 32
  {
    a / Pow2(n)
  }

  /** The character of a decimal digit. */
  function DigitChar(d: nat): (c: char)
    requires d < 10
    ensures '0' <= c <= '9'
  {
    ('0' as int + d) as char
  }

  function DigitValue(c: char): (d: nat)
    requires '0' <= c <= '9'
  {
    c as nat - '0' as nat
  }

  /** The decimal digits of `n`, most significant first, without leading zeros. */
  function Digits(n: nat): (s: string)
    ensures |s| >= 1
    ensures forall i :: 0 <= i < |s| ==> '0' <= s[i] <= '9'
  {
    if n < 10 then [DigitChar(n)] else Digits(n / 10) + [DigitChar(n % 10)]
  }

  /** Java's `Integer.toString(i)` (also what `"" + i` produces). */
  function IntToString(i: int): (s: string)
    ensures |s| >= 1
    ensures s[0] == '-' <==> i < 0
  {
    if i < 0 then "-" + Digits(-i) else Digits(i)
  }

  /** Reads a string of decimal digits back as a number. */
  function ParseDigits(s: string): nat
    requires forall i :: 0 <= i < |s| ==> '0' <= s[i] <= '9'
  {
    if |s| == 0 then 0 else 10 * ParseDigits(s[..|s| - 1]) + DigitValue(s[|s| - 1])
  }

  /** Reads the output of `IntToString` back. */
  function ParseInt(s: string): int
    requires |s| >= 1
    requires forall i :: 1 <= i < |s| ==> '0' <= s[i] <= '9'
    requires s[0] != '-' ==> '0' <= s[0] <= '9'
  {
    if s[0] == '-' then -(ParseDigits(s[1..]) as int) else ParseDigits(s)
  }

  lemma {:induction false} DigitsRoundTrip(n: nat)
    ensures ParseDigits(Digits(n)) == n
  {
    if n >= 10 {
      var s := Digits(n);
      assert s[..|s| - 1] == Digits(n / 10);
      assert s[|s| - 1] == DigitChar(n % 10);
      DigitsRoundTrip(n / 10);
    }
  }

  /** `Integer.toString` loses nothing: the number can be read back from its text. */
  lemma IntToStringRoundTrip(i: int)
    ensures ParseInt(IntToString(i)) == i
  {
    var s := IntToString(i);
    if i < 0 {
      var d := Digits(-i);
      assert s == "-" + d;
      assert s[1..] == d;
      DigitsRoundTrip(-i);
      assert ParseInt(s) == -(ParseDigits(d) as int);
    } else {
      assert s == Digits(i);
      DigitsRoundTrip(i);
      assert ParseInt(s) == ParseDigits(s);
    }
  }

  /** Distinct numbers have distinct decimal texts. */
  lemma IntToStringInjective(a: int, b: int)
    requires a != b
    ensures IntToString(a) != IntToString(b)
  {
    IntToStringRoundTrip(a);
    IntToStringRoundTrip(b);
  }
}

=== FILE: pipeline.dfy ===
/**
 * `PicoImgRequest.run` and `runAsync` as transitions over a world of
 * requests, registry, RAM cache and disk index. `run` has two branches:
 * the worker branch (`RunWork`: keys, linking pass, RAM check, fetch and
 * decode on a miss, done) and, once done, the publish branch (`Publish`).
 * What the platform decides (whether a stream opens, the HTTP response,
 * the SQLite insert, the decoder's output, when `cancel()` arrives) comes in
 * as an environment record.
 */
module Pipeline {
  import opened Wrappers
  import opened DecodePolicy
  import opened Requests
  import opened RamCache
  import opened DiskCache
  import opened Download
  import opened Registry

  datatype World = World(arena: Arena, registry: seq<nat>, ram: Cache, disk: Index)

  predicate Valid(w: World) {
    IdsValid(w.arena, w.registry) && RowIdsValid(w.disk)
  }

  /** `TextUtils.isEmpty` negated: not `null` and not "". */
  predicate NonEmpty(s: Option<string>) {
    s.Some? && s.value != ""
  }

  /** What the platform answers for a URL source. */
  datatype UrlEnv = UrlEnv(
    dirOk: bool,                // the cache directory exists or could be created
    now: int,                   // `System.currentTimeMillis() / 1000`
    status: int,                // the HTTP response code
    contentLength: int,         // the advertised length, -1 when unknown
    received: int,              // the bytes the pump wrote
    cancelDuringDownload: bool, // `cancel()` arrived before the pump's flag was last read
    insertId: int,              // what the row insert returned, -1 on failure
    renameOk: bool)             // whether the temporary file could be renamed

  /** What the platform answers for one execution of the worker branch. */
  datatype WorkEnv = WorkEnv(
    sourceOpens: bool,                  // the resource or asset stream opened
    url: UrlEnv,
    cancelBeforeDecode: bool,           // `cancel()` arrived before the check ahead of decoding
    decoded: Result<ImageState, Error>) // what the decoder (PNG, GIF or `BaseState`) produced

  /** After the URL branch: the index, the entry id the cache file ends up under, the failure if any, whether cleanup is due. */
  datatype UrlStage = UrlStage(index: Index, cacheKey: int, failure: Option<Error>, cleanup: bool)

  /** Whether the entry for `key` may be reused without downloading: lookup on, a row of non-zero size, its file present. */
  predicate Reusable(ix: Index, key: string, o: Options) {
    o.diskLookup && key in ix.rows && ix.rows[key].size != 0 && ix.rows[key].id in ix.files
  }

  /**
   * The cache directory after the download was written under `written` and
   * possibly renamed to `final`: every other file is kept.
   */
  function FilesAfterWrite(files: set<int>, written: int, final: int): (f: set<int>)
    ensures final in f && files - {written} <= f
    ensures forall id :: id in f ==> id in files || id == written || id == final
    ensures final == written ==> f == files + {written}
  {
    if final == written then files + {written} else files - {written} + {final}
  }

  /**
   * The download branch: a non-200 response fails before the file is
   * written; otherwise the file is written, the download classified and,
   * when disk store is enabled, registered as written.
   */
  function DownloadTo(ix: Index, key: string, cacheKey: int, diskStore: bool, cancelled: bool, env: UrlEnv): (u: UrlStage)
    requires RowIdsValid(ix)
    requires cacheKey >= 0 ==> key in ix.rows && ix.rows[key].id == cacheKey
    requires cacheKey < 0 && diskStore ==> key !in ix.rows
    ensures RowIdsValid(u.index) && u.index.limit == ix.limit
    ensures forall id :: id in u.index.files && id !in ix.files ==> id == u.cacheKey
    ensures u.failure.None? ==> u.cacheKey in u.index.files
    ensures u.cleanup ==> u.index.limit > 0 && u.index.total >= u.index.limit
    ensures u.index.lastTempId == ix.lastTempId
    ensures env.status != HttpOk ==> u.index.files == ix.files && u.cacheKey == cacheKey
    ensures env.status == HttpOk ==> u.index.files == FilesAfterWrite(ix.files, cacheKey, u.cacheKey)
    ensures var c := Classify(env.status, env.contentLength, env.received, cancelled || env.cancelDuringDownload);
      && (c.Failure? ==> u.failure == Some(c.error) && u.index.rows == ix.rows && u.index.total == ix.total)
      && (c.Success? ==> u.failure.None?)
      && u.cacheKey == (if c.Success? && diskStore && cacheKey < 0 && env.insertId >= 0 && env.renameOk then env.insertId else cacheKey)
      && (c.Success? && !diskStore ==> u.index.rows == ix.rows && u.index.total == ix.total)
      && (c.Success? && diskStore && cacheKey < 0 ==>
            && u.index.total == ix.total + env.received
            && u.index.rows == (if env.insertId >= 0 then ix.rows[key := Row(env.insertId, env.received, env.now)] else ix.rows))
      && (c.Success? && diskStore && cacheKey >= 0 ==>
            u.index.rows == ix.rows[key := ix.rows[key].(used := env.now)] && u.index.total == ix.total)
  {
    if env.status != HttpOk then
      UrlStage(ix, cacheKey, Some(BadStatus(env.status)), false)
    else
      var written := ix.(files := ix.files + {cacheKey});
      match Classify(env.status, env.contentLength, env.received, cancelled || env.cancelDuringDownload)
      case Failure(e) => UrlStage(written, cacheKey, Some(e), false)
      case Success(n) =>
        if diskStore then
          var c := CommitDownloadAsWritten(written, key, cacheKey, n, env.now, env.insertId, env.renameOk);
          UrlStage(c.index, c.cacheKey, None, c.cleanup)
        else
          UrlStage(written, cacheKey, None, false)
  }

  /**
   * Corrected download step: as `DownloadTo`, except that a 200 response
   * whose download then fails deletes the file it was writing, whatever
   * its id, so a truncated file never stays behind under an entry's id.
   */
  function DownloadToDiscarding(ix: Index, key: string, cacheKey: int, diskStore: bool, cancelled: bool, env: UrlEnv): (u: UrlStage)
    requires RowIdsValid(ix)
    requires cacheKey >= 0 ==> key in ix.rows && ix.rows[key].id == cacheKey
    requires cacheKey < 0 && diskStore ==> key !in ix.rows
    ensures RowIdsValid(u.index)
    ensures env.status != HttpOk || u.failure.None? ==> u == DownloadTo(ix, key, cacheKey, diskStore, cancelled, env)
    ensures env.status == HttpOk && u.failure.Some? ==>
      && u.failure == DownloadTo(ix, key, cacheKey, diskStore, cancelled, env).failure
      && u.index == ix.(files := ix.files - {cacheKey}) && u.cacheKey == cacheKey && !u.cleanup
  {
    var d := DownloadTo(ix, key, cacheKey, diskStore, cancelled, env);
    if env.status == HttpOk && d.failure.Some? then d.(index := d.index.(files := d.index.files - {cacheKey}))
    else d
  }

  /**
   * With the corrected step, an entry whose re-download failed is not
   * reused by the next lookup: its file is gone, so it is fetched again.
   */
  lemma {:induction false} FailedDownloadIsNotReused(ix: Index, key: string, cacheKey: int, diskStore: bool, cancelled: bool,
                                                     env: UrlEnv, lookup: bool, store: bool)
    requires RowIdsValid(ix)
    requires cacheKey >= 0 && key in ix.rows && ix.rows[key].id == cacheKey
    requires env.status == HttpOk
    requires DownloadToDiscarding(ix, key, cacheKey, diskStore, cancelled, env).failure.Some?
    ensures var u := DownloadToDiscarding(ix, key, cacheKey, diskStore, cancelled, env);
      && cacheKey !in u.index.files && u.index.rows == ix.rows
      && var res := Resolve(u.index, key, lookup, store, true);
         res.slot.Success? && !res.slot.value.useCached
  {
    var u := DownloadToDiscarding(ix, key, cacheKey, diskStore, cancelled, env);
    assert u.index.files == ix.files - {cacheKey};
  }

  /**
   * The URL branch of `run` for a source keyed `key`: resolve the entry;
   * reuse its file (refreshing its timestamp), or download unless the
   * request is cache-only; finally the file under the entry id is opened,
   * which fails when it does not exist.
   */
  function FetchUrl(ix: Index, key: string, o: Options, cancelled: bool, env: UrlEnv): (u: UrlStage)
    requires RowIdsValid(ix)
    ensures RowIdsValid(u.index)
    ensures u.index.limit == ix.limit
    ensures u.index.lastTempId == if (o.diskLookup || o.diskStore) && key in ix.rows then ix.lastTempId else ix.lastTempId + 1
    ensures forall id :: id in u.index.files && id !in ix.files ==> id == u.cacheKey
    ensures u.failure.None? ==> u.cacheKey in u.index.files
    ensures u.index.total != ix.total ==> !o.cachedOnly && o.diskStore && key !in ix.rows
    ensures o.cachedOnly ==> u.index.rows.Keys == ix.rows.Keys
    ensures u.cleanup ==> u.index.limit > 0 && u.index.total >= u.index.limit
    ensures !env.dirOk ==> u.failure == Some(CacheDirUnavailable) && u.index.rows == ix.rows && u.index.files == ix.files
    ensures env.dirOk && Reusable(ix, key, o) ==>
      && u.failure.None? && u.cacheKey == ix.rows[key].id && !u.cleanup
      && u.index.rows == ix.rows[key := ix.rows[key].(used := env.now)]
      && u.index.files == ix.files && u.index.total == ix.total
    ensures env.dirOk && !Reusable(ix, key, o) && o.cachedOnly ==>
      && u.index.rows == ix.rows && u.index.files == ix.files && !u.cleanup
      && (u.failure.None? <==> u.cacheKey in ix.files)
      && (u.failure.Some? ==> u.failure == Some(CacheFileMissing))
    ensures env.dirOk && !Reusable(ix, key, o) && !o.cachedOnly ==>
      var k := Resolve(ix, key, o.diskLookup, o.diskStore, env.dirOk).cacheKey;
      var c := Classify(env.status, env.contentLength, env.received, cancelled || env.cancelDuringDownload);
      && u.index.files == (if env.status == HttpOk then FilesAfterWrite(ix.files, k, u.cacheKey) else ix.files)
      && u.cacheKey == (if c.Success? && o.diskStore && k < 0 && env.insertId >= 0 && env.renameOk then env.insertId else k)
      && (c.Failure? ==> u.failure == Some(c.error) && u.index.rows == ix.rows && u.index.total == ix.total)
      && (c.Success? ==> u.failure.None?)
      && (c.Success? && !o.diskStore ==> u.index.rows == ix.rows && u.index.total == ix.total)
      && (c.Success? && o.diskStore && key !in ix.rows ==>
            && u.index.total == ix.total + env.received
            && u.index.rows == (if env.insertId >= 0 then ix.rows[key := Row(env.insertId, env.received, env.now)] else ix.rows))
      && (c.Success? && o.diskStore && key in ix.rows ==>
            u.index.rows == ix.rows[key := ix.rows[key].(used := env.now)] && u.index.total == ix.total)
  {
    var res := Resolve(ix, key, o.diskLookup, o.diskStore, env.dirOk);
    match res.slot
    case Failure(e) => UrlStage(res.index, res.cacheKey, Some(e), false)
    case Success(slot) =>
      if slot.useCached then
        UrlStage(Touch(res.index, key, env.now), slot.cacheKey, None, false)
      else if !o.cachedOnly then
        DownloadTo(res.index, key, slot.cacheKey, o.diskStore, cancelled, env)
      else
        UrlStage(res.index, slot.cacheKey, if slot.cacheKey in res.index.files then None else Some(CacheFileMissing), false)
  }

  /** What opening the source produced; `hasCacheFile` is whether `cacheFile` was set. */
  datatype Opened = Opened(index: Index, cacheKey: int, hasCacheFile: bool, failure: Option<Error>, cleanup: bool, cancelled: bool)

  /**
   * Opening the input: a resource, else a non-empty asset, else a
   * non-empty URL through the disk cache, else there is nothing to read.
   */
  function OpenSource(r: Request, ix: Index, env: WorkEnv): (op: Opened)
    requires RowIdsValid(ix)
    ensures RowIdsValid(op.index) && op.index.limit == ix.limit
    ensures !op.hasCacheFile ==> op.index == ix && !op.cleanup && op.cancelled == r.progress.cancelled
    ensures forall id :: id in op.index.files && id !in ix.files ==> id == op.cacheKey
    ensures op.cleanup ==> op.index.limit > 0 && op.index.total >= op.index.limit
    ensures r.progress.cancelled ==> op.cancelled
    ensures r.source.resId != 0 || NonEmpty(r.source.asset) ==>
      !op.hasCacheFile && op.failure == (if env.sourceOpens then None else Some(OpenFailed))
    ensures r.source.resId == 0 && !NonEmpty(r.source.asset) && !NonEmpty(r.source.url) ==>
      !op.hasCacheFile && op.failure == Some(NoInputStream)
    ensures r.source.resId == 0 && !NonEmpty(r.source.asset) && NonEmpty(r.source.url) && r.keys.inputKey.None? ==>
      !op.hasCacheFile && op.failure == Some(NullInputKey)
    ensures r.source.resId == 0 && !NonEmpty(r.source.asset) && NonEmpty(r.source.url) && r.keys.inputKey.Some? ==>
      var u := FetchUrl(ix, r.keys.inputKey.value, r.options, r.progress.cancelled, env.url);
      && op.hasCacheFile && op.index == u.index && op.cacheKey == u.cacheKey
      && op.failure == u.failure && op.cleanup == u.cleanup
      && op.cancelled == (r.progress.cancelled || env.url.cancelDuringDownload)
  {
    var cancelled := r.progress.cancelled;
    if r.source.resId != 0 || NonEmpty(r.source.asset) then
      Opened(ix, -1, false, if env.sourceOpens then None else Some(OpenFailed), false, cancelled)
    else if NonEmpty(r.source.url) then
      if r.keys.inputKey.None? then
        // `mInputKey.hashCode()` on a null key throws before the cache file is named
        Opened(ix, -1, false, Some(NullInputKey), false, cancelled)
      else
        var u := FetchUrl(ix, r.keys.inputKey.value, r.options, cancelled, env.url);
        Opened(u.index, u.cacheKey, true, u.failure, u.cleanup, cancelled || env.url.cancelDuringDownload)
    else
      Opened(ix, -1, false, Some(NoInputStream), false, cancelled)
  }

  datatype Work = Work(request: Request, ram: Cache, disk: Index, cleanup: bool)

  /** The outcome ahead of decoding: a failure to open wins, then a cancellation, then the decoder's answer. */
  function DecodeOutcome(op: Opened, cancelled: bool, env: WorkEnv): (d: Result<ImageState, Error>)
    ensures d.Success? ==> op.failure.None? && !cancelled && d == env.decoded
    ensures op.failure.Some? ==> d == Failure(op.failure.value)
    ensures op.failure.None? && cancelled ==> d == Failure(Cancelled)
    ensures op.failure.None? && !cancelled ==> d == env.decoded
  {
    if op.failure.Some? then Failure(op.failure.value)
    else if cancelled then Failure(Cancelled)
    else env.decoded
  }

  /** The outcome on the request: a decoded state becomes the result; an error is kept only for a callback. */
  function Record(r: Request, d: Result<ImageState, Error>, cancelled: bool): (r': Request)
    ensures r'.source == r.source && r'.keys == r.keys && r'.options == r.options
    ensures var g, g' := r.progress, r'.progress;
      && g'.done == g.done && g'.hasDrawable == g.hasDrawable
      && g'.linkingPassDone == g.linkingPassDone && g'.linked == g.linked && g'.linkNext == g.linkNext
      && g'.cancelled == cancelled
      && g'.result == (if d.Success? then Some(d.value) else g.result)
      && g'.error == (if d.Failure? && r.options.hasCallback then Some(d.error) else g.error)
  {
    r.(progress := r.progress.(
      cancelled := cancelled,
      result := if d.Success? then Some(d.value) else r.progress.result,
      error := if d.Failure? && r.options.hasCallback then Some(d.error) else r.progress.error))
  }

  /** A decoded state is stored under the RAM key when RAM store is enabled. */
  function StoreResult(ram: Cache, r: Request, d: Result<ImageState, Error>): (c: Cache)
    ensures c != ram ==> d.Success? && r.options.ramStore && r.keys.ramKey.Some? && c == Store(ram, r.keys.ramKey.value, d.value)
    ensures d.Success? && r.options.ramStore && r.keys.ramKey.Some? ==> c == Store(ram, r.keys.ramKey.value, d.value)
  {
    if d.Success? && r.options.ramStore && r.keys.ramKey.Some? then Store(ram, r.keys.ramKey.value, d.value) else ram
  }

  /** The cache file is deleted after decoding when it is still under a temporary id. */
  function CloseCacheFile(op: Opened, ix: Index): (ix': Index)
    requires RowIdsValid(op.index)
    requires forall id :: id in op.index.files && id !in ix.files ==> id == op.cacheKey
    requires !op.hasCacheFile ==> op.index == ix
    ensures RowIdsValid(ix') && ix'.limit == op.index.limit && ix'.total == op.index.total
    ensures ix'.rows == op.index.rows && ix'.lastTempId == op.index.lastTempId
    ensures NoTempFiles(ix) ==> NoTempFiles(ix')
    ensures !op.hasCacheFile ==> ix' == ix
    ensures op.hasCacheFile ==> ix'.files == (if op.cacheKey < 0 then op.index.files - {op.cacheKey} else op.index.files)
  {
    if op.hasCacheFile then DropTempFile(op.index, op.cacheKey) else op.index
  }

  /**
   * The work of `run` on a RAM miss: open the source, give up if
   * cancelled, decode, store the result in the RAM cache, record an error
   * only when a callback will receive it, and drop a file still under a
   * temporary id.
   */
  function DoWork(r: Request, ram: Cache, ix: Index, env: WorkEnv): (w: Work)
    requires RowIdsValid(ix)
    ensures w.request.source == r.source && w.request.keys == r.keys && w.request.options == r.options
    ensures var g, g' := r.progress, w.request.progress;
      && g'.done == g.done && g'.hasDrawable == g.hasDrawable
      && g'.linkingPassDone == g.linkingPassDone && g'.linked == g.linked && g'.linkNext == g.linkNext
    ensures r.progress.cancelled ==> w.request.progress.cancelled
    ensures w.request.progress.cancelled ==> w.request.progress.result == r.progress.result
    ensures w.request.progress.result != r.progress.result ==>
      env.decoded.Success? && w.request.progress.result == Some(env.decoded.value)
    ensures w.request.progress.error != r.progress.error ==> r.options.hasCallback
    ensures w.ram != ram ==>
      && r.options.ramStore && r.keys.ramKey.Some? && w.request.progress.result.Some?
      && w.ram == Store(ram, r.keys.ramKey.value, w.request.progress.result.value)
    ensures RowIdsValid(w.disk) && w.disk.limit == ix.limit
    ensures NoTempFiles(ix) ==> NoTempFiles(w.disk)
    ensures !NonEmpty(r.source.url) || r.source.resId != 0 || NonEmpty(r.source.asset) ==> w.disk == ix
    ensures w.cleanup ==> w.disk.limit > 0 && w.disk.total >= w.disk.limit
  {
    var op := OpenSource(r, ix, env);
    var cancelled := op.cancelled || env.cancelBeforeDecode;
    var d := DecodeOutcome(op, cancelled, env);
    Work(Record(r, d, cancelled), StoreResult(ram, r, d), CloseCacheFile(op, ix), op.cleanup)
  }

  /**
   * What the work does, branch by branch of the opened source: the disk
   * index is the one opening left (a file still under a temporary id
   * deleted), and the decode outcome becomes the result, the RAM entry or
   * the error.
   */
  lemma DoWorkFollowsOpen(r: Request, ram: Cache, ix: Index, env: WorkEnv)
    requires RowIdsValid(ix)
    ensures var w := DoWork(r, ram, ix, env);
      var op := OpenSource(r, ix, env);
      var cancelled := op.cancelled || env.cancelBeforeDecode;
      && w.request.progress.cancelled == cancelled
      && w.disk.rows == op.index.rows && w.disk.total == op.index.total && w.cleanup == op.cleanup
      && w.disk.lastTempId == op.index.lastTempId
      && w.disk.files == (if op.hasCacheFile && op.cacheKey < 0 then op.index.files - {op.cacheKey} else op.index.files)
      && (op.failure.None? && !cancelled && env.decoded.Success? ==>
            && w.request.progress.result == Some(env.decoded.value)
            && w.request.progress.error == r.progress.error
            && w.ram == (if r.options.ramStore && r.keys.ramKey.Some?
                         then Store(ram, r.keys.ramKey.value, env.decoded.value) else ram))
      && (op.failure.Some? ==>
            && w.request.progress.result == r.progress.result && w.ram == ram
            && w.request.progress.error == (if r.options.hasCallback then op.failure else r.progress.error))
      && (op.failure.None? && cancelled ==>
            && w.request.progress.result == r.progress.result && w.ram == ram
            && w.request.progress.error == (if r.options.hasCallback then Some(Cancelled) else r.progress.error))
      && (op.failure.None? && !cancelled && env.decoded.Failure? ==>
            && w.request.progress.result == r.progress.result && w.ram == ram
            && w.request.progress.error == (if r.options.hasCallback then Some(env.decoded.error) else r.progress.error))
  {
  }

  /** Where the worker branch leaves the request: linked away, or done with its follower to run next. */
  datatype Next = Stopped | Done(follower: Option<nat>)

  datatype Step = Step(world: World, next: Next, cleanup: bool)

  /** What the RAM check of `run` finds for a request: nothing when RAM lookup is off or there is no RAM key. */
  function RamHit(r: Request, ram: Cache): (hit: Option<ImageState>)
    ensures hit.Some? ==> r.options.ramLookup && r.keys.ramKey.Some?
    ensures r.options.ramLookup && r.keys.ramKey.Some? ==>
      hit == Lookup(ram, r.keys.ramKey.value, r.options.resizeWidth, r.options.resizeHeight)
  {
    if r.options.ramLookup && r.keys.ramKey.Some? then
      Lookup(ram, r.keys.ramKey.value, r.options.resizeWidth, r.options.resizeHeight)
    else None
  }

  /**
   * The worker branch after linking: re-check the RAM cache, work on a
   * miss, mark done and hand over to the follower.
   */
  function Finish(w: World, self: nat, env: WorkEnv): (s: Step)
    requires Valid(w) && self < |w.arena|
    ensures Valid(s.world) && |s.world.arena| == |w.arena| && s.world.registry == w.registry
    ensures forall j :: 0 <= j < |w.arena| && j != self ==> s.world.arena[j] == w.arena[j]
    ensures var g, g' := w.arena[self].progress, s.world.arena[self].progress;
      && g'.done && g'.linkNext == g.linkNext && g'.linked == g.linked && g'.linkingPassDone == g.linkingPassDone
      && g'.hasDrawable == g.hasDrawable
    ensures s.next == Done(w.arena[self].progress.linkNext)
    ensures NoTempFiles(w.disk) ==> NoTempFiles(s.world.disk)
    ensures var r, r' := w.arena[self], s.world.arena[self];
      r'.source == r.source && r'.keys == r.keys && r'.options == r.options
    ensures var r := w.arena[self];
      var hit := RamHit(r, w.ram);
      && (hit.Some? || r.progress.result.Some? ==>
            && s.world.arena[self].progress.result == (if hit.Some? then hit else r.progress.result)
            && s.world.arena[self].progress.error == r.progress.error
            && s.world.arena[self].progress.cancelled == r.progress.cancelled
            && s.world.ram == w.ram && s.world.disk == w.disk && !s.cleanup)
      && (hit.None? && r.progress.result.None? ==>
            var wk := DoWork(r, w.ram, w.disk, env);
            && s.world.arena[self].progress.result == wk.request.progress.result
            && s.world.arena[self].progress.error == wk.request.progress.error
            && s.world.arena[self].progress.cancelled == wk.request.progress.cancelled
            && s.world.ram == wk.ram && s.world.disk == wk.disk && s.cleanup == wk.cleanup)
  {
    var r := w.arena[self];
    var r1 := if r.options.ramLookup && r.keys.ramKey.Some? then CheckRamCache(r, w.ram) else r;
    assert RamHit(r, w.ram).None? ==> r1 == r;
    var wk := if r1.progress.result.None? then DoWork(r1, w.ram, w.disk, env) else Work(r1, w.ram, w.disk, false);
    var r2 := wk.request.(progress := wk.request.progress.(done := true));
    Step(World(w.arena[self := r2], w.registry, wk.ram, wk.disk), Done(r2.progress.linkNext), wk.cleanup)
  }

  /** The work reads neither the link fields nor `done`: requests that differ only there do the same work. */
  lemma DoWorkIgnoresLinks(r: Request, r': Request, ram: Cache, ix: Index, env: WorkEnv)
    requires RowIdsValid(ix)
    requires r'.source == r.source && r'.keys == r.keys && r'.options == r.options
    requires r'.progress.result == r.progress.result && r'.progress.error == r.progress.error
    requires r'.progress.cancelled == r.progress.cancelled
    ensures var a, b := DoWork(r, ram, ix, env), DoWork(r', ram, ix, env);
      && a.ram == b.ram && a.disk == b.disk && a.cleanup == b.cleanup
      && a.request.progress.result == b.request.progress.result
      && a.request.progress.error == b.request.progress.error
      && a.request.progress.cancelled == b.request.progress.cancelled
  {
    assert OpenSource(r, ix, env) == OpenSource(r', ix, env);
  }

  /**
   * The worker branch of `run`: configure the keys, run
   * the linking pass once and stop if it linked the request, then finish.
   */
  function RunWork(w: World, self: nat, env: WorkEnv): (s: Step)
    requires Valid(w) && self < |w.arena| && !w.arena[self].progress.done
    ensures Valid(s.world) && |s.world.arena| == |w.arena|
    ensures forall j :: 0 <= j < |w.arena| && j != self && s.world.arena[j] != w.arena[j] ==>
      s.next == Stopped && s.world.arena[j].progress.linkNext == Some(self)
    ensures s.next == Stopped <==> !w.arena[self].progress.linkingPassDone && s.world.arena[self].progress.linked
    ensures s.next == Stopped ==> s.world.ram == w.ram && s.world.disk == w.disk && !s.world.arena[self].progress.done
    ensures s.next.Done? ==> s.world.arena[self].progress.done && s.next.follower == s.world.arena[self].progress.linkNext
    ensures s.world.arena[self].progress.linkingPassDone
    ensures w.arena[self].progress.linkingPassDone ==> s.world.registry == w.registry
    ensures !w.arena[self].progress.linkingPassDone ==>
      s.world.registry == (if self in w.registry then w.registry else w.registry + [self])
    ensures s.next == Stopped ==>
      s.world.arena[self].progress == ConfigureKeys(w.arena[self]).progress.(linkingPassDone := true, linked := true)
    ensures s.world.arena[self].progress.hasDrawable == w.arena[self].progress.hasDrawable
    ensures !w.arena[self].progress.linkingPassDone && multiset(w.registry)[self] <= 1 ==>
      multiset(s.world.registry)[self] == 1
    ensures NoTempFiles(w.disk) ==> NoTempFiles(s.world.disk)
    ensures var r, r' := ConfigureKeys(w.arena[self]), s.world.arena[self];
      r'.source == r.source && r'.keys == r.keys && r'.options == r.options
    ensures s.next.Done? ==>
      var r := ConfigureKeys(w.arena[self]);
      var hit := RamHit(r, w.ram);
      && (hit.Some? || r.progress.result.Some? ==>
            && s.world.arena[self].progress.result == (if hit.Some? then hit else r.progress.result)
            && s.world.arena[self].progress.error == r.progress.error
            && s.world.arena[self].progress.cancelled == r.progress.cancelled
            && s.world.ram == w.ram && s.world.disk == w.disk && !s.cleanup)
      && (hit.None? && r.progress.result.None? ==>
            var wk := DoWork(r, w.ram, w.disk, env);
            && s.world.arena[self].progress.result == wk.request.progress.result
            && s.world.arena[self].progress.error == wk.request.progress.error
            && s.world.arena[self].progress.cancelled == wk.request.progress.cancelled
            && s.world.ram == wk.ram && s.world.disk == wk.disk && s.cleanup == wk.cleanup)
  {
    var r0 := ConfigureKeys(w.arena[self]);
    var w0 := w.(arena := w.arena[self := r0]);
    assert w0.arena[self] == r0;
    if !r0.progress.linkingPassDone then FirstRun(w0, self, env)
    else Finish(w0, self, env)
  }

  /**
   * The first run of a configured request: the linking pass, then a stop
   * if it linked the request, else the finish as for a re-run.
   */
  function FirstRun(w: World, self: nat, env: WorkEnv): (s: Step)
    requires Valid(w) && self < |w.arena| && !w.arena[self].progress.done
    requires !w.arena[self].progress.linkingPassDone
    ensures Valid(s.world) && |s.world.arena| == |w.arena|
    ensures forall j :: 0 <= j < |w.arena| && j != self && s.world.arena[j] != w.arena[j] ==>
      s.next == Stopped && s.world.arena[j].progress.linkNext == Some(self)
    ensures s.next == Stopped <==> s.world.arena[self].progress.linked
    ensures s.next == Stopped ==> s.world.ram == w.ram && s.world.disk == w.disk
    ensures s.next == Stopped ==>
      s.world.arena[self] == w.arena[self].(progress := w.arena[self].progress.(linkingPassDone := true, linked := true))
    ensures s.next.Done? ==> s.world.arena[self].progress.done && s.next.follower == s.world.arena[self].progress.linkNext
    ensures s.world.arena[self].progress.linkingPassDone
    ensures s.world.registry == if self in w.registry then w.registry else w.registry + [self]
    ensures NoTempFiles(w.disk) ==> NoTempFiles(s.world.disk)
    ensures var r, r' := w.arena[self], s.world.arena[self];
      && r'.source == r.source && r'.keys == r.keys && r'.options == r.options
      && r'.progress.hasDrawable == r.progress.hasDrawable
    ensures s.next.Done? ==>
      var r := w.arena[self];
      var hit := RamHit(r, w.ram);
      && (hit.Some? || r.progress.result.Some? ==>
            && s.world.arena[self].progress.result == (if hit.Some? then hit else r.progress.result)
            && s.world.arena[self].progress.error == r.progress.error
            && s.world.arena[self].progress.cancelled == r.progress.cancelled
            && s.world.ram == w.ram && s.world.disk == w.disk && !s.cleanup)
      && (hit.None? && r.progress.result.None? ==>
            var wk := DoWork(r, w.ram, w.disk, env);
            && s.world.arena[self].progress.result == wk.request.progress.result
            && s.world.arena[self].progress.error == wk.request.progress.error
            && s.world.arena[self].progress.cancelled == wk.request.progress.cancelled
            && s.world.ram == wk.ram && s.world.disk == wk.disk && s.cleanup == wk.cleanup)
  {
    var p := LinkingPass(w.arena, w.registry, self);
    var w1 := w.(arena := p.arena, registry := p.registry);
    if p.arena[self].progress.linked then Step(w1, Stopped, false)
    else
      DoWorkIgnoresLinks(w.arena[self], p.arena[self], w.ram, w.disk, env);
      Finish(w1, self, env)
  }

  /** What the publish branch and `runAsync` do outside the model's state. */
  datatype Effect =
    | CancelViewRequests               // `PicoImg.cancel(view)`
    | ShowPlaceholder                  // the placeholder set on the view
    | CreateDrawable(width: int, height: int)
    | ShowResult(fadeSteps: int, fadeDuration: int)
    | ResultCallback
    | ErrorCallback(error: Error)
    | ClearView                        // `setImageResource(transparent)`

  predicate Delivers(effects: seq<Effect>) {
    exists i :: 0 <= i < |effects| && effects[i].ShowResult?
  }

  datatype Published = Published(world: World, effects: seq<Effect>)

  /**
   * The publish branch of `run`: deliver the result unless
   * cancelled, clear an empty view, synthesise a cancellation error for a
   * callback, report the error, and leave the registry.
   */
  function Publish(w: World, self: nat): (p: Published)
    requires self < |w.arena| && w.arena[self].progress.done
    ensures |p.world.arena| == |w.arena|
    ensures forall j :: 0 <= j < |w.arena| && j != self ==> p.world.arena[j] == w.arena[j]
    ensures var r, r' := w.arena[self], p.world.arena[self];
      r'.source == r.source && r'.keys == r.keys && r'.options == r.options
      && r'.progress.done == r.progress.done && r'.progress.cancelled == r.progress.cancelled
      && r'.progress.result == r.progress.result && r'.progress.linkNext == r.progress.linkNext
    ensures p.world.arena[self].progress == PublishedProgress(w.arena[self].progress, w.arena[self].options)
    ensures p.effects == PublishEffects(w.arena[self].progress, w.arena[self].options)
    ensures p.world.ram == w.ram && p.world.disk == w.disk
    ensures p.world.registry == RemoveFirst(w.registry, self)
    ensures multiset(p.world.registry) == multiset(w.registry) - multiset{self}
    ensures multiset(w.registry)[self] <= 1 ==> self !in p.world.registry
  {
    var r := w.arena[self];
    Published(World(w.arena[self := r.(progress := PublishedProgress(r.progress, r.options))],
                    RemoveFirst(w.registry, self), w.ram, w.disk),
              PublishEffects(r.progress, r.options))
  }

  /** What publish shows and reports, in order. */
  function PublishEffects(g: Progress, o: Options): (e: seq<Effect>)
    ensures Delivers(e) <==> !g.cancelled && g.result.Some?
    ensures Delivers(e) ==> ShowResult(if o.hasView then o.fadeSteps else 0, o.fadeDuration) in e
    ensures ResultCallback in e <==> Delivers(e) && o.hasCallback
    ensures ClearView in e <==> !g.cancelled && g.result.None? && o.hasView && !g.hasDrawable && !o.hasPlaceholder
    ensures var err := PublishedProgress(g, o).error;
      o.hasCallback && err.Some? <==> |e| > 0 && e[|e| - 1].ErrorCallback?
    ensures var err := PublishedProgress(g, o).error;
      o.hasCallback && err.Some? ==> e[|e| - 1] == ErrorCallback(err.value)
  {
    var g1 := PublishedProgress(g, o);
    var shown := ShownEffects(g, o);
    var reported := if g1.error.Some? && o.hasCallback then [ErrorCallback(g1.error.value)] else [];
    assert !Delivers(reported) && ClearView !in reported && ResultCallback !in reported;
    DeliversAppend(shown, reported);
    shown + reported
  }

  /** Publish on the progress: a delivered result now has a drawable; a cancellation becomes the callback's error. */
  function PublishedProgress(g: Progress, o: Options): (g': Progress)
    ensures g'.done == g.done && g'.cancelled == g.cancelled && g'.result == g.result
    ensures g'.linkingPassDone == g.linkingPassDone && g'.linked == g.linked && g'.linkNext == g.linkNext
    ensures g'.hasDrawable == (g.hasDrawable || (!g.cancelled && g.result.Some?))
    ensures g'.error == if g.cancelled && o.hasCallback && g.error.None? then Some(Cancelled) else g.error
  {
    if !g.cancelled then
      if g.result.Some? then g.(hasDrawable := true) else g
    else if o.hasCallback && g.error.None? then g.(error := Some(Cancelled))
    else g
  }

  /** Publish on the view and callback: everything publish does before reporting an error. */
  function ShownEffects(g: Progress, o: Options): (e: seq<Effect>)
    ensures Delivers(e) <==> !g.cancelled && g.result.Some?
    ensures Delivers(e) ==> ShowResult(if o.hasView then o.fadeSteps else 0, o.fadeDuration) in e
    ensures ResultCallback in e <==> Delivers(e) && o.hasCallback
    ensures ClearView in e <==> !g.cancelled && g.result.None? && o.hasView && !g.hasDrawable && !o.hasPlaceholder
    ensures forall i :: 0 <= i < |e| ==> !e[i].ErrorCallback?
  {
    if !g.cancelled then
      if g.result.Some? then
        var created := if !g.hasDrawable then
            var fit := o.resizeWidth > 0 && o.resizeHeight > 0;
            [CreateDrawable(if fit then o.resizeWidth else g.result.value.width,
                            if fit then o.resizeHeight else g.result.value.height)]
          else [];
        var show := [ShowResult(if o.hasView then o.fadeSteps else 0, o.fadeDuration)];
        var callback := if o.hasCallback then [ResultCallback] else [];
        assert (created + show + callback)[|created|] == show[0];
        created + show + callback
      else if o.hasView && !g.hasDrawable && !o.hasPlaceholder then [ClearView]
      else []
    else []
  }

  lemma DeliversAppend(a: seq<Effect>, b: seq<Effect>)
    ensures Delivers(a + b) <==> Delivers(a) || Delivers(b)
  {
    if Delivers(a + b) {
      var i :| 0 <= i < |a + b| && (a + b)[i].ShowResult?;
      if i < |a| { assert a[i] == (a + b)[i]; } else { assert b[i - |a|] == (a + b)[i]; }
    }
    if Delivers(a) {
      var i :| 0 <= i < |a| && a[i].ShowResult?;
      assert (a + b)[i] == a[i];
    }
    if Delivers(b) {
      var i :| 0 <= i < |b| && b[i].ShowResult?;
      assert (a + b)[|a| + i] == b[i];
    }
  }

  /** How `runAsync` leaves a request: handed to publish at once, or registered and scheduled. */
  datatype Submitted = Submitted(world: World, effects: seq<Effect>, scheduled: bool)

  /**
   * `runAsync`: configure keys and check the RAM cache; on a
   * hit collapse the fade unless it is forced and go straight to publish,
   * without the registry or the executor; otherwise prepare the view when
   * on the main thread, register and schedule.
   */
  function Submit(w: World, self: nat, mainThread: bool): (s: Submitted)
    requires Valid(w) && self < |w.arena| && !w.arena[self].progress.done
    ensures Valid(s.world) && |s.world.arena| == |w.arena|
    ensures forall j :: 0 <= j < |w.arena| && j != self ==> s.world.arena[j] == w.arena[j]
    ensures s.world.ram == w.ram && s.world.disk == w.disk
    ensures (CancelViewRequests in s.effects) == w.arena[self].options.hasView
    ensures var r := ConfigureKeys(w.arena[self]);
      s.effects == (if r.options.hasView then [CancelViewRequests] else []) +
        (if s.scheduled then ViewPreparation(r.options, mainThread) else [])
    ensures var r := ConfigureKeys(w.arena[self]);
      s.scheduled <==> RamHit(r, w.ram).None? && r.progress.result.None?
    ensures !s.scheduled ==>
      var r := ConfigureKeys(w.arena[self]);
      var hit := RamHit(r, w.ram);
      && s.world.registry == w.registry
      && s.world.arena[self]
         == r.(options := r.options.(fadeSteps := if r.options.fadeAlways then r.options.fadeSteps else 1),
               progress := r.progress.(result := if hit.Some? then hit else r.progress.result, done := true))
    ensures s.scheduled ==>
      var r := ConfigureKeys(w.arena[self]);
      && s.world.registry == w.registry + [self]
      && s.world.arena[self]
         == r.(progress := r.progress.(hasDrawable := r.progress.hasDrawable ||
                 (r.options.hasView && mainThread && r.options.resizeWidth > 0 && r.options.resizeHeight > 0)))
  {
    var r := ConfigureKeys(w.arena[self]);
    var a := Admit(r, w.ram, mainThread);
    var w' := w.(arena := w.arena[self := a.request], registry := if a.scheduled then w.registry + [self] else w.registry);
    assert w'.arena[self] == a.request;
    Submitted(w', a.effects, a.scheduled)
  }

  /** What `runAsync` makes of a configured request: the request afterwards, the effects, whether it was scheduled. */
  datatype Admission = Admission(request: Request, effects: seq<Effect>, scheduled: bool)

  /**
   * `runAsync` on the request itself once its keys are configured: a RAM
   * hit (or a result already there) is served at once; a miss prepares
   * the view and is scheduled.
   */
  function Admit(r: Request, ram: Cache, mainThread: bool): (a: Admission)
    requires !r.progress.done
    ensures (CancelViewRequests in a.effects) == r.options.hasView
    ensures a.scheduled <==> RamHit(r, ram).None? && r.progress.result.None?
    ensures a.effects == (if r.options.hasView then [CancelViewRequests] else []) +
      (if a.scheduled then ViewPreparation(r.options, mainThread) else [])
    ensures !a.scheduled ==>
      var hit := RamHit(r, ram);
      a.request == r.(options := r.options.(fadeSteps := if r.options.fadeAlways then r.options.fadeSteps else 1),
                      progress := r.progress.(result := if hit.Some? then hit else r.progress.result, done := true))
    ensures a.scheduled ==>
      a.request == r.(progress := r.progress.(hasDrawable := r.progress.hasDrawable ||
        (r.options.hasView && mainThread && r.options.resizeWidth > 0 && r.options.resizeHeight > 0)))
  {
    var cancelView := if r.options.hasView then [CancelViewRequests] else [];
    if RamHit(r, ram).Some? || r.progress.result.Some? then
      Admission(ServedAtOnce(RamChecked(r, ram)), cancelView, false)
    else
      var p := PrepareView(r, mainThread);
      Admission(p.request, cancelView + p.effects, true)
  }

  /** The RAM check when RAM lookup is on and there is a RAM key: a hit becomes the result. */
  function RamChecked(r: Request, ram: Cache): (r': Request)
    ensures r'.source == r.source && r'.keys == r.keys && r'.options == r.options
    ensures r'.progress == r.progress.(result := if RamHit(r, ram).Some? then RamHit(r, ram) else r.progress.result)
  {
    if r.options.ramLookup && r.keys.ramKey.Some? then CheckRamCache(r, ram) else r
  }

  /** A request answered from the RAM cache at submission: done, its fade collapsed to 1 unless forced. */
  function ServedAtOnce(r: Request): (r': Request)
    ensures r'.source == r.source && r'.keys == r.keys
    ensures r'.options == r.options.(fadeSteps := if r.options.fadeAlways then r.options.fadeSteps else 1)
    ensures r'.progress == r.progress.(done := true)
  {
    r.(options := r.options.(fadeSteps := if r.options.fadeAlways then r.options.fadeSteps else 1),
       progress := r.progress.(done := true))
  }

  datatype Prepared = Prepared(request: Request, effects: seq<Effect>)

  /**
   * Preparing the view on the main thread before scheduling: a drawable of
   * the resize size when both are positive, else the placeholder if any.
   */
  function PrepareView(r: Request, mainThread: bool): (p: Prepared)
    ensures p.request.source == r.source && p.request.keys == r.keys && p.request.options == r.options
    ensures p.request.progress == r.progress.(hasDrawable := r.progress.hasDrawable ||
      (r.options.hasView && mainThread && r.options.resizeWidth > 0 && r.options.resizeHeight > 0))
    ensures p.effects == ViewPreparation(r.options, mainThread)
  {
    var o := r.options;
    if o.hasView && mainThread && o.resizeWidth > 0 && o.resizeHeight > 0 then
      Prepared(r.(progress := r.progress.(hasDrawable := true)), ViewPreparation(o, mainThread))
    else Prepared(r, ViewPreparation(o, mainThread))
  }

  /**
   * What preparing the view shows: on the main thread with a view, a
   * drawable of the resize size when both are positive, else the
   * placeholder if there is one; nothing otherwise.
   */
  function ViewPreparation(o: Options, mainThread: bool): (e: seq<Effect>)
    ensures CancelViewRequests !in e
    ensures e != [] ==> o.hasView && mainThread
    ensures o.hasView && mainThread && o.resizeWidth > 0 && o.resizeHeight > 0 ==>
      e == [CreateDrawable(o.resizeWidth, o.resizeHeight)]
    ensures o.hasView && mainThread && !(o.resizeWidth > 0 && o.resizeHeight > 0) ==>
      e == (if o.hasPlaceholder then [ShowPlaceholder] else [])
  {
    if o.hasView && mainThread then
      if o.resizeWidth > 0 && o.resizeHeight > 0 then [CreateDrawable(o.resizeWidth, o.resizeHeight)]
      else if o.hasPlaceholder then [ShowPlaceholder]
      else []
    else []
  }
}

=== FILE: ram_cache.dfy ===
/**
 * The in-memory cache `sRamCache`: RAM key to a soft reference to a decoded
 * state, and the acceptance test of `checkRamCache`. Reclamation by the
 * garbage collector is an entry that is present but cleared.
 */
module RamCache {
  import opened Wrappers
  import opened JavaInt
  import opened DecodePolicy
  import opened Requests

  /** A `SoftReference`: still holding its state, or cleared by the collector. */
  datatype Entry = Cleared | Held(state: ImageState)

  type Cache = map<string, Entry>

  /**
   * Whether a cached state may serve a request for `rw` by `rh`: a state
   * decoded at full size always may; a downsampled one only if it is at
   * least as large as the request on both axes and the request names a size.
   */
  predicate Serves(s: ImageState, rw: int, rh: int) {
    s.scaleShift <= 0 || (rw <= s.width && rh <= s.height && (rw != 0 || rh != 0))
  }

  /** The lookup of `checkRamCache`: absent, cleared and too-small entries are all misses. */
  function Lookup(cache: Cache, key: string, rw: int, rh: int): (hit: Option<ImageState>)
    ensures hit.Some? <==> key in cache && cache[key].Held? && Serves(cache[key].state, rw, rh)
    ensures hit.Some? ==> hit.value == cache[key].state
  {
    if key !in cache then None
    else match cache[key]
      case Cleared => None
      case Held(state) =>
        if state.scaleShift > 0 && (state.width < rw || state.height < rh || (rw == 0 && rh == 0)) then None
        else Some(state)
  }

  /** `checkRamCache()`: a hit becomes the request's result; a miss leaves the request as it was. */
  function CheckRamCache(r: Request, cache: Cache): (r': Request)
    requires r.keys.ramKey.Some?
    ensures r'.source == r.source && r'.keys == r.keys && r'.options == r.options
    ensures r'.progress.(result := r.progress.result) == r.progress
    ensures var hit := Lookup(cache, r.keys.ramKey.value, r.options.resizeWidth, r.options.resizeHeight);
      r'.progress.result == (if hit.Some? then hit else r.progress.result)
  {
    match Lookup(cache, r.keys.ramKey.value, r.options.resizeWidth, r.options.resizeHeight)
    case Some(state) => r.(progress := r.progress.(result := Some(state)))
    case None => r
  }

  /** `sRamCache.put(key, new SoftReference<>(state))`. */
  function Store(cache: Cache, key: string, state: ImageState): (c: Cache)
    ensures c.Keys == cache.Keys + {key}
    ensures c[key] == Held(state)
    ensures forall k :: k in cache && k != key ==> c[k] == cache[k]
  {
    cache[key := Held(state)]
  }

  /** What was stored is found again by every request it can serve, until the collector clears it. */
  lemma StoreThenLookup(cache: Cache, key: string, state: ImageState, rw: int, rh: int)
    ensures Lookup(Store(cache, key, state), key, rw, rh) == (if Serves(state, rw, rh) then Some(state) else None)
  {
  }

  /** A request without a size is served only by a state decoded at full size. */
  lemma NativeRequestNeedsFullSize(cache: Cache, key: string)
    ensures var hit := Lookup(cache, key, 0, 0); hit.Some? ==> hit.value.scaleShift <= 0
  {
  }

  /** A downsampled state that serves a size also serves every smaller non-zero size. */
  lemma ServesSmaller(s: ImageState, rw: int, rh: int, rw': int, rh': int)
    requires Serves(s, rw, rh)
    requires rw' <= rw && rh' <= rh
    requires rw' != 0 || rh' != 0
    ensures Serves(s, rw', rh')
  {
  }

  /**
   * A state decoded by `scaleToTarget` for a target serves a later request
   * for the same target, when the decoder honoured the sample size and the
   * orientation did not swap the axes.
   */
  lemma ScaledStateServesItsTarget(w: nat, h: nat, tw: int, th: int, s: ImageState)
    requires w <= MaxInt && h <= MaxInt
    requires tw >= 0 && th >= 0 && (tw != 0 || th != 0)
    requires var r := ScaleToTarget(w, h, tw, th);
      s.scaleShift == r.shift && s.width == r.width && s.height == r.height
    ensures Serves(s, tw, th)
  {
    ShiftKeepsAboveTarget(w, h, tw, th);
  }
}

=== FILE: registry.dfy ===
/**
 * The in-flight registry `sRequests` and the same-input chain. Requests
 * live in an arena and are named by their index; the registry is the list
 * of indices in iteration order, and `mLinkNext` is an optional index.
 * The linking pass at the start of `run` is one atomic step, as the lock
 * on the registry makes it.
 */
module Registry {
  import opened Wrappers
  import opened Requests

  type Arena = seq<Request>

  predicate IdsValid(arena: Arena, registry: seq<nat>) {
    forall k :: 0 <= k < |registry| ==> registry[k] < |arena|
  }

  /**
   * Whether request `j` can take `self` as its follower: another request
   * with the same non-null input key that has finished its own linking
   * pass, has no follower yet and is not done.
   */
  predicate CanLead(arena: Arena, self: nat, j: nat)
    requires self < |arena| && j < |arena|
  {
    && j != self
    && arena[self].keys.inputKey.Some?
    && arena[j].keys.inputKey == arena[self].keys.inputKey
    && arena[j].progress.linkingPassDone
    && arena[j].progress.linkNext.None?
    && !arena[j].progress.done
  }

  /** The position, from `i` on, of the first registered request that can lead `self`. */
  function FirstLeader(arena: Arena, registry: seq<nat>, self: nat, i: nat): (r: Option<nat>)
    requires self < |arena| && IdsValid(arena, registry)
    requires i <= |registry|
    ensures r.Some? ==> i <= r.value < |registry| && CanLead(arena, self, registry[r.value])
    ensures r.Some? ==> forall k :: i <= k < r.value ==> !CanLead(arena, self, registry[k])
    ensures r.None? ==> forall k :: i <= k < |registry| ==> !CanLead(arena, self, registry[k])
    decreases |registry| - i
  {
    if i == |registry| then None
    else if CanLead(arena, self, registry[i]) then Some(i)
    else FirstLeader(arena, registry, self, i + 1)
  }

  /** The state after a linking pass and the request `self` was linked onto, if any. */
  datatype Pass = Pass(arena: Arena, registry: seq<nat>, leader: Option<nat>)

  /**
   * The linking pass of `run`: unless `self` is already
   * linked, the first registered request that can lead it takes it as its
   * follower; then `self` has done its pass and is in the registry.
   */
  function LinkingPass(arena: Arena, registry: seq<nat>, self: nat): (p: Pass)
    requires self < |arena| && IdsValid(arena, registry)
    ensures |p.arena| == |arena| && IdsValid(p.arena, p.registry)
    ensures p.leader.Some? <==>
      !arena[self].progress.linked && exists k :: 0 <= k < |registry| && CanLead(arena, self, registry[k])
    ensures p.leader.Some? ==> p.leader.value in registry && CanLead(arena, self, p.leader.value)
    ensures p.leader.Some? ==> forall k :: 0 <= k < |registry| && registry[k] != p.leader.value && CanLead(arena, self, registry[k]) ==>
      exists m :: 0 <= m < k && registry[m] == p.leader.value
    ensures p.leader.Some? ==>
      p.arena[p.leader.value] == arena[p.leader.value].(progress := arena[p.leader.value].progress.(linkNext := Some(self)))
    ensures forall j :: 0 <= j < |arena| && j != self && Some(j) != p.leader ==> p.arena[j] == arena[j]
    ensures p.arena[self] == arena[self].(progress := arena[self].progress.(
      linkingPassDone := true, linked := arena[self].progress.linked || p.leader.Some?))
    ensures p.registry == if self in registry then registry else registry + [self]
    ensures multiset(p.registry) == multiset(registry) + (if self in registry then multiset{} else multiset{self})
    ensures multiset(registry)[self] <= 1 ==> multiset(p.registry)[self] == 1
  {
    var me := arena[self];
    var pos := if me.progress.linked then None else FirstLeader(arena, registry, self, 0);
    var leader := if pos.Some? then Some(registry[pos.value]) else None;
    var linked := arena[self].progress.linked || leader.Some?;
    var arena1 := if leader.Some? then
        arena[leader.value := arena[leader.value].(progress := arena[leader.value].progress.(linkNext := Some(self)))]
      else arena;
    var arena2 := arena1[self := me.(progress := me.progress.(linkingPassDone := true, linked := linked))];
    var registry' := if self in registry then registry else registry + [self];
    AppendIfAbsentCounts(registry, self);
    Pass(arena2, registry', leader)
  }

  /** Registering `self` unless present adds it to the multiset only when it was absent, leaving it there once. */
  lemma AppendIfAbsentCounts(registry: seq<nat>, self: nat)
    ensures var r := if self in registry then registry else registry + [self];
      && multiset(r) == multiset(registry) + (if self in registry then multiset{} else multiset{self})
      && (multiset(registry)[self] <= 1 ==> multiset(r)[self] == 1)
  {
    assert self !in registry ==> multiset(registry)[self] == 0;
  }

  // ---- the same-input chain ----

  predicate PointsTo(arena: Arena, i: nat, f: nat)
    requires i < |arena|
  {
    arena[i].progress.linkNext == Some(f)
  }

  /**
   * The chain is well formed: a link goes from a request that has done its
   * pass to another, linked, request in the arena; a linked request has done
   * its pass; no request is the follower of two.
   */
  predicate ChainsWellFormed(arena: Arena) {
    && (forall i :: 0 <= i < |arena| && arena[i].progress.linkNext.Some? ==>
          var f := arena[i].progress.linkNext.value;
          f < |arena| && f != i && arena[f].progress.linked && arena[i].progress.linkingPassDone)
    && (forall i :: 0 <= i < |arena| && arena[i].progress.linked ==> arena[i].progress.linkingPassDone)
    && (forall i, j :: 0 <= i < j < |arena| && arena[i].progress.linkNext.Some? ==>
          arena[j].progress.linkNext != arena[i].progress.linkNext)
  }

  /**
   * The linking pass of a request that has not yet done one keeps the chain
   * well formed: nothing pointed at `self` before, so the new link cannot
   * give it a second leader.
   */
  lemma LinkingPassKeepsChains(arena: Arena, registry: seq<nat>, self: nat)
    requires self < |arena| && IdsValid(arena, registry)
    requires ChainsWellFormed(arena)
    requires !arena[self].progress.linkingPassDone
    ensures ChainsWellFormed(LinkingPass(arena, registry, self).arena)
  {
    var p := LinkingPass(arena, registry, self);
    assert forall i :: 0 <= i < |arena| ==> arena[i].progress.linkNext != Some(self);
    forall i, j | 0 <= i < j < |p.arena| && p.arena[i].progress.linkNext.Some?
      ensures p.arena[j].progress.linkNext != p.arena[i].progress.linkNext
    {
      if Some(i) == p.leader {
        assert p.arena[j].progress.linkNext == arena[j].progress.linkNext;
      } else if Some(j) == p.leader {
        assert p.arena[i].progress.linkNext == arena[i].progress.linkNext;
      }
    }
  }

  /**
   * Only the link fields matter to the chain: a step that keeps every
   * `mLinkNext` and `mLinked` and never clears `mLinkingPassDone` keeps it
   * well formed.
   */
  lemma ChainsDependOnLinks(a: Arena, b: Arena)
    requires |a| == |b| && ChainsWellFormed(a)
    requires forall i :: 0 <= i < |a| ==>
      b[i].progress.linkNext == a[i].progress.linkNext && b[i].progress.linked == a[i].progress.linked
    requires forall i :: 0 <= i < |a| && a[i].progress.linkingPassDone ==> b[i].progress.linkingPassDone
    ensures ChainsWellFormed(b)
  {
    forall i, j | 0 <= i < j < |b| && b[i].progress.linkNext.Some?
      ensures b[j].progress.linkNext != b[i].progress.linkNext
    {
      assert a[i].progress.linkNext == b[i].progress.linkNext;
      assert a[j].progress.linkNext == b[j].progress.linkNext;
    }
  }

  /** `r` is `registry` without its element at `i`, the first occurrence of `self`. */
  predicate DropsFirstAt(registry: seq<nat>, self: nat, i: int, r: seq<nat>) {
    0 <= i < |registry| && registry[i] == self && self !in registry[..i] && r == registry[..i] + registry[i+1..]
  }

  /** `sRequests.remove(r)`: drops the first occurrence of `self`, if any, keeping the order of the rest. */
  function RemoveFirst(registry: seq<nat>, self: nat): (r: seq<nat>)
    ensures multiset(r) == multiset(registry) - multiset{self}
    ensures multiset(registry)[self] <= 1 ==> self !in r
    ensures self !in registry ==> r == registry
    ensures self in registry ==> exists i :: DropsFirstAt(registry, self, i, r)
  {
    if |registry| == 0 then []
    else if registry[0] == self then
      assert registry == [self] + registry[1..];
      assert DropsFirstAt(registry, self, 0, registry[1..]);
      registry[1..]
    else
      var rest := RemoveFirst(registry[1..], self);
      PrependKeepsCounts(registry, self, rest);
      PrependKeepsFirstSplit(registry, self, rest);
      [registry[0]] + rest
  }

  /** Putting back a head that is not `self` keeps the counts the removal promises. */
  lemma PrependKeepsCounts(registry: seq<nat>, self: nat, rest: seq<nat>)
    requires |registry| > 0 && registry[0] != self
    requires multiset(rest) == multiset(registry[1..]) - multiset{self}
    requires multiset(registry[1..])[self] <= 1 ==> self !in rest
    ensures multiset([registry[0]] + rest) == multiset(registry) - multiset{self}
    ensures multiset(registry)[self] <= 1 ==> self !in [registry[0]] + rest
  {
    assert registry == [registry[0]] + registry[1..];
  }

  /** Putting back a head that is not `self` moves the first occurrence of `self` one place right. */
  lemma PrependKeepsFirstSplit(registry: seq<nat>, self: nat, rest: seq<nat>)
    requires |registry| > 0 && registry[0] != self
    requires self !in registry[1..] ==> rest == registry[1..]
    requires self in registry[1..] ==> exists j :: DropsFirstAt(registry[1..], self, j, rest)
    ensures self !in registry ==> [registry[0]] + rest == registry
    ensures self in registry ==> exists i :: DropsFirstAt(registry, self, i, [registry[0]] + rest)
  {
    assert registry == [registry[0]] + registry[1..];
    if self in registry {
      assert self in registry[1..];
      var j :| DropsFirstAt(registry[1..], self, j, rest);
      var i := j + 1;
      assert registry[..i] == [registry[0]] + registry[1..][..j];
      assert registry[i+1..] == registry[1..][j+1..];
      assert DropsFirstAt(registry, self, i, [registry[0]] + rest);
    }
  }
}

=== FILE: requests.dfy ===
/**
 * A `PicoImgRequest` as an immutable record: its source, the keys it is
 * cached under, its options, and the state its execution adds. The three
 * package-private constructors, the builder setters and `generateRamKey`
 * are pure functions over it.
 */
module Requests {
  import opened Wrappers
  import opened JavaInt
  import opened DecodePolicy

  /** What can go wrong in a request; each becomes the request's `mResultError`. */
  datatype Error =
    | WrongImageFormat                        // decoder produced no bitmap
    | Cancelled                               // `CancelledException`
    | BadStatus(status: int)                  // "Status ... from server"
    | SizeMismatch(promised: int, sent: int)  // "Server promised ... bytes and sent ..."
    | CacheDirUnavailable                     // "Unable to create cache directory"
    | CacheFileMissing                        // opening the cache file failed
    | NoInputStream                           // "No input stream opened"
    | OpenFailed                              // a resource or asset could not be opened
    | NullInputKey                            // a URL source whose key was cleared

  /** Where the bytes come from: `mInputResId` (0 for none), `mInputAsset`, `mInputUrl`. */
  datatype Source = Source(resId: int, asset: Option<string>, url: Option<string>)

  /** `mInputKey` and `mRamKey`. */
  datatype Keys = Keys(inputKey: Option<string>, ramKey: Option<string>)

  /** The setup fields and the target: what the builder setters write. */
  datatype Options = Options(
    disableAnimation: bool,
    ramLookup: bool,
    ramStore: bool,
    diskLookup: bool,
    diskStore: bool,
    cachedOnly: bool,
    hasPlaceholder: bool,
    fadeSteps: int,
    fadeDuration: int,
    fadeAlways: bool,
    resizeWidth: int,
    resizeHeight: int,
    hasView: bool,
    hasCallback: bool)

  /** What execution adds: the done and cancelled flags, the same-input chain, the result and the error. */
  datatype Progress = Progress(
    done: bool,
    cancelled: bool,
    linkingPassDone: bool,
    linked: bool,
    linkNext: Option<nat>,
    result: Option<ImageState>,
    hasDrawable: bool,
    error: Option<Error>)

  datatype Request = Request(source: Source, keys: Keys, options: Options, progress: Progress)

  /** The field initialisers: every cache enabled, one fade step, no target, no size. */
  const DefaultOptions: Options :=
    Options(false, true, true, true, true, false, false, 1, 0, false, 0, 0, false, false)

  /** Nothing has run yet. */
  const NotStarted: Progress := Progress(false, false, false, false, None, None, false, None)

  /** A request as a constructor leaves it. */
  predicate Fresh(r: Request) {
    r.keys.ramKey.None? && r.options == DefaultOptions && r.progress == NotStarted
  }

  /** `PicoImgRequest(ctx, resId)`: keyed by `"#"` followed by the resource id in decimal. */
  function ForResource(resId: int): (r: Request)
    ensures Fresh(r)
    ensures r.source == Source(resId, None, None)
    ensures r.keys.inputKey == Some("#" + IntToString(resId))
  {
    Request(Source(resId, None, None), Keys(Some("#" + IntToString(resId)), None), DefaultOptions, NotStarted)
  }

  /** `PicoImgRequest(ctx, asset)`: keyed by the asset name. */
  function ForAsset(asset: Option<string>): (r: Request)
    ensures Fresh(r)
    ensures r.source == Source(0, asset, None)
    ensures r.keys.inputKey == asset
  {
    Request(Source(0, asset, None), Keys(asset, None), DefaultOptions, NotStarted)
  }

  /** `PicoImgRequest(ctx, url, unused)`: keyed by the URL. */
  function ForUrl(url: Option<string>): (r: Request)
    ensures Fresh(r)
    ensures r.source == Source(0, None, url)
    ensures r.keys.inputKey == url
  {
    Request(Source(0, None, url), Keys(url, None), DefaultOptions, NotStarted)
  }

  /** Two different resources never share a key, so they are never linked or cached as one. */
  lemma ResourceKeysDistinct(a: int, b: int)
    requires a != b
    ensures ForResource(a).keys.inputKey != ForResource(b).keys.inputKey
  {
    var ka := ForResource(a).keys.inputKey.value;
    var kb := ForResource(b).keys.inputKey.value;
    IntToStringInjective(a, b);
    assert ka[1..] == IntToString(a) && kb[1..] == IntToString(b);
  }

  // ---- builder setters: each overwrites its own option fields only ----

  function To(r: Request, view: bool): Request {
    r.(options := r.options.(hasView := view))
  }

  function Callback(r: Request, callback: bool): Request {
    r.(options := r.options.(hasCallback := callback))
  }

  function Placeholder(r: Request, placeholder: bool): Request {
    r.(options := r.options.(hasPlaceholder := placeholder))
  }

  function Fade(r: Request, steps: int, durationMillis: int, always: bool): Request {
    r.(options := r.options.(fadeSteps := steps, fadeDuration := durationMillis, fadeAlways := always))
  }

  function Size(r: Request, width: int, height: int): Request {
    r.(options := r.options.(resizeWidth := width, resizeHeight := height))
  }

  function DisableAnimation(r: Request, disable: bool): Request {
    r.(options := r.options.(disableAnimation := disable))
  }

  function CachedOnly(r: Request, cachedOnly: bool): Request {
    r.(options := r.options.(cachedOnly := cachedOnly))
  }

  /**
   * The builder setters only record options: none
   * of them touches the source, the keys or the progress, and each leaves
   * the cache switches alone.
   */
  lemma SettersOnlyRecordOptions(r: Request, view: bool, callback: bool, placeholder: bool, steps: int, duration: int,
                                 always: bool, width: int, height: int, disable: bool, cachedOnly: bool)
    ensures var r' := CachedOnly(DisableAnimation(Size(Fade(Placeholder(Callback(To(r, view), callback), placeholder),
                                                            steps, duration, always), width, height), disable), cachedOnly);
      && r'.source == r.source && r'.keys == r.keys && r'.progress == r.progress
      && r'.options.hasView == view && r'.options.hasCallback == callback && r'.options.hasPlaceholder == placeholder
      && r'.options.fadeSteps == steps && r'.options.fadeDuration == duration && r'.options.fadeAlways == always
      && r'.options.resizeWidth == width && r'.options.resizeHeight == height
      && r'.options.disableAnimation == disable && r'.options.cachedOnly == cachedOnly
      && r'.options.ramLookup == r.options.ramLookup && r'.options.ramStore == r.options.ramStore
      && r'.options.diskLookup == r.options.diskLookup && r'.options.diskStore == r.options.diskStore
  {
  }

  /** `cacheKey(key)`: replaces the input key the constructor derived; `null` is allowed. */
  function CacheKey(r: Request, key: Option<string>): (r': Request)
    ensures r'.keys.inputKey == key && r'.keys.ramKey == r.keys.ramKey
    ensures r'.source == r.source && r'.options == r.options && r'.progress == r.progress
  {
    r.(keys := r.keys.(inputKey := key))
  }

  /** `skipCache(...)`: each flag names a cache step to skip, so the stored options are the negations. */
  function SkipCache(r: Request, skipRamLookup: bool, skipRamStore: bool, skipDiskLookup: bool, skipDiskStore: bool): (r': Request)
    ensures r'.options.ramLookup != skipRamLookup && r'.options.ramStore != skipRamStore
    ensures r'.options.diskLookup != skipDiskLookup && r'.options.diskStore != skipDiskStore
    ensures r'.options.(ramLookup := r.options.ramLookup, ramStore := r.options.ramStore,
                        diskLookup := r.options.diskLookup, diskStore := r.options.diskStore) == r.options
    ensures r'.source == r.source && r'.keys == r.keys && r'.progress == r.progress
  {
    r.(options := r.options.(ramLookup := !skipRamLookup, ramStore := !skipRamStore,
                             diskLookup := !skipDiskLookup, diskStore := !skipDiskStore))
  }

  // ---- cache keys ----

  const NoAnimSuffix: string := "#noanim"

  predicate EndsWithNoAnim(s: string) {
    |s| >= |NoAnimSuffix| && s[|s| - |NoAnimSuffix|..] == NoAnimSuffix
  }

  /** The RAM key of a non-empty input key: the same bitmap decoded without animation is cached apart. */
  function RamKeyFor(inputKey: string, disableAnimation: bool): string {
    if disableAnimation then inputKey + NoAnimSuffix else inputKey
  }

  lemma SuffixedEndsWithNoAnim(k: string)
    ensures EndsWithNoAnim(k + NoAnimSuffix)
  {
    var s := k + NoAnimSuffix;
    assert s[|s| - |NoAnimSuffix|..] == NoAnimSuffix;
  }

  /** `generateRamKey` on a non-null input key: an empty key becomes `null` and yields no RAM key. */
  function GenerateRamKey(inputKey: string, disableAnimation: bool): (k: Keys)
    ensures k.inputKey.Some? <==> inputKey != ""
    ensures k.ramKey.Some? <==> inputKey != ""
    ensures k.inputKey.Some? ==> k.inputKey.value == inputKey
    ensures k.ramKey.Some? ==> |k.ramKey.value| >= |inputKey| && k.ramKey.value[..|inputKey|] == inputKey
    ensures k.ramKey.Some? && disableAnimation ==> EndsWithNoAnim(k.ramKey.value)
    ensures k.ramKey.Some? && !disableAnimation ==> k.ramKey.value == inputKey
    ensures inputKey != "" ==> k.ramKey == Some(if disableAnimation then inputKey + NoAnimSuffix else inputKey)
  {
    if inputKey == "" then Keys(None, None)
    else
      SuffixedEndsWithNoAnim(inputKey);
      Keys(Some(inputKey), Some(RamKeyFor(inputKey, disableAnimation)))
  }

  /**
   * The key configuration at the start of `run` and `runAsync`: only when
   * there is an input key and no RAM key yet is `generateRamKey` called.
   */
  function ConfigureKeys(r: Request): (r': Request)
    ensures r'.source == r.source && r'.options == r.options && r'.progress == r.progress
    ensures r.keys.ramKey.Some? || r.keys.inputKey.None? ==> r'.keys == r.keys
    ensures r.keys.ramKey.None? && r.keys.inputKey.Some? ==>
      r'.keys == GenerateRamKey(r.keys.inputKey.value, r.options.disableAnimation)
  {
    if r.keys.inputKey.Some? && r.keys.ramKey.None? then
      r.(keys := GenerateRamKey(r.keys.inputKey.value, r.options.disableAnimation))
    else r
  }

  /** Keys are configured once: a second configuration changes nothing. */
  lemma ConfigureKeysIdempotent(r: Request)
    ensures ConfigureKeys(ConfigureKeys(r)) == ConfigureKeys(r)
  {
  }

  /**
   * A RAM key names one (input key, animation) pair, provided no input key
   * itself ends in `#noanim`.
   */
  lemma RamKeyInjective(k1: string, d1: bool, k2: string, d2: bool)
    requires !EndsWithNoAnim(k1) && !EndsWithNoAnim(k2)
    ensures RamKeyFor(k1, d1) == RamKeyFor(k2, d2) <==> k1 == k2 && d1 == d2
  {
    SuffixedEndsWithNoAnim(k1);
    SuffixedEndsWithNoAnim(k2);
    if d1 && d2 && RamKeyFor(k1, d1) == RamKeyFor(k2, d2) {
      var s := RamKeyFor(k1, d1);
      assert k1 == s[..|s| - |NoAnimSuffix|] == k2;
    }
  }

  /** Without that proviso two different requests can share a RAM key. */
  lemma RamKeysCanCollide()
    ensures RamKeyFor("u#noanim", false) == RamKeyFor("u", true)
  {
  }

  /**
   * The RAM key a built request ends up with: the last key given to
   * `cacheKey`, suffixed when animation is disabled, or none for an empty
   * or `null` key.
   */
  lemma RamKeyOfBuiltRequest(r: Request, key: Option<string>, disable: bool)
    requires Fresh(r)
    ensures var r' := ConfigureKeys(CacheKey(DisableAnimation(r, disable), key));
      r'.keys.ramKey == (if key.Some? && key.value != "" then Some(RamKeyFor(key.value, disable)) else None)
  {
  }

  /** Default keys: `"#"` plus the id for a resource, the name for an asset, the URL for a URL. */
  lemma DefaultRamKeys(resId: int, name: string, disable: bool)
    requires name != ""
    ensures ConfigureKeys(DisableAnimation(ForResource(resId), disable)).keys.ramKey
      == Some(RamKeyFor("#" + IntToString(resId), disable))
    ensures ConfigureKeys(DisableAnimation(ForAsset(Some(name)), disable)).keys.ramKey == Some(RamKeyFor(name, disable))
    ensures ConfigureKeys(DisableAnimation(ForUrl(Some(name)), disable)).keys.ramKey == Some(RamKeyFor(name, disable))
    ensures var r := ConfigureKeys(ForUrl(Some(""))); r.keys.ramKey.None? && r.keys.inputKey.None?
  {
  }
}

=== FILE: scenarios.dfy ===
/**
 * Properties of whole runs: a request taken from the RAM cache at
 * submission, the re-run of a follower, a download cancelled after it
 * completed, and the chain of linked requests across the worker branch.
 */
module Scenarios {
  import opened Wrappers
  import opened DecodePolicy
  import opened Requests
  import opened RamCache
  import opened DiskCache
  import opened Download
  import opened Registry
  import opened Pipeline

  /**
   * A RAM hit at submission is published without the registry or the
   * executor: the cached state is shown, with the fade collapsed to its
   * final step unless the fade is forced.
   */
  lemma RamHitIsPublishedAtOnce(w: World, self: nat, mainThread: bool, s: ImageState)
    requires Valid(w) && self < |w.arena| && !w.arena[self].progress.done
    requires !w.arena[self].progress.cancelled
    requires var r := ConfigureKeys(w.arena[self]);
      && r.options.ramLookup && r.keys.ramKey.Some?
      && r.keys.ramKey.value in w.ram && w.ram[r.keys.ramKey.value] == Held(s)
      && Serves(s, r.options.resizeWidth, r.options.resizeHeight)
    ensures var sub := Submit(w, self, mainThread);
      var p := Publish(sub.world, self);
      var o := w.arena[self].options;
      && !sub.scheduled
      && p.world.arena[self].progress.result == Some(s)
      && ShowResult(if o.hasView then (if o.fadeAlways then o.fadeSteps else 1) else 0, o.fadeDuration) in p.effects
      && (ResultCallback in p.effects <==> o.hasCallback)
      && p.world.registry == RemoveFirst(w.registry, self)
  {
    var sub := Submit(w, self, mainThread);
    var r := sub.world.arena[self];
    assert r.progress.result == Some(s);
    assert r.progress.cancelled == w.arena[self].progress.cancelled;
  }

  /**
   * A follower, re-run after its leader finished, skips the linking pass and
   * takes the leader's state from the RAM cache when it is still there: no
   * download, no decode.
   */
  lemma FollowerServedFromRam(w: World, self: nat, env: WorkEnv, s: ImageState)
    requires Valid(w) && self < |w.arena| && !w.arena[self].progress.done
    requires w.arena[self].progress.linkingPassDone
    requires var r := ConfigureKeys(w.arena[self]);
      && r.options.ramLookup && r.keys.ramKey.Some?
      && r.keys.ramKey.value in w.ram && w.ram[r.keys.ramKey.value] == Held(s)
      && Serves(s, r.options.resizeWidth, r.options.resizeHeight)
    ensures var st := RunWork(w, self, env);
      && st.next == Done(w.arena[self].progress.linkNext)
      && st.world.arena[self].progress.result == Some(s)
      && st.world.ram == w.ram && st.world.disk == w.disk && st.world.registry == w.registry
  {
  }

  /**
   * A follower whose RAM check misses does the whole job again with its own
   * keys and options: the leader's result is not handed over.
   */
  lemma FollowerMissDoesItsOwnWork(w: World, self: nat, env: WorkEnv)
    requires Valid(w) && self < |w.arena| && !w.arena[self].progress.done
    requires w.arena[self].progress.linkingPassDone && w.arena[self].progress.result.None?
    requires RamHit(ConfigureKeys(w.arena[self]), w.ram).None?
    ensures var st := RunWork(w, self, env);
      var wk := DoWork(ConfigureKeys(w.arena[self]), w.ram, w.disk, env);
      && st.world.disk == wk.disk && st.world.ram == wk.ram
      && st.world.arena[self].progress.result == wk.request.progress.result
  {
  }

  /**
   * A download that completed but was cancelled while the pump ran is still
   * registered in the disk cache under its new row, yet nothing is
   * delivered: publish reports a cancellation to a callback instead.
   */
  lemma CancelledCompleteDownloadIsCachedNotDelivered(r: Request, ram: Cache, ix: Index, env: WorkEnv)
    requires RowIdsValid(ix)
    requires r.source.resId == 0 && !NonEmpty(r.source.asset) && NonEmpty(r.source.url)
    requires r.keys.inputKey.Some? && r.keys.inputKey.value !in ix.rows
    requires r.options.diskStore && !r.options.cachedOnly
    requires r.progress.result.None? && r.progress.error.None? && !r.progress.cancelled
    requires env.url.dirOk && env.url.status == HttpOk
    requires env.url.contentLength > 0 && env.url.received == env.url.contentLength
    requires env.url.cancelDuringDownload
    requires env.url.insertId >= 0 && env.url.renameOk
    ensures var wk := DoWork(r, ram, ix, env);
      var u := env.url;
      var g := wk.request.progress;
      var e := PublishEffects(g, wk.request.options);
      && wk.disk.rows == ix.rows[r.keys.inputKey.value := Row(u.insertId, u.received, u.now)]
      && u.insertId in wk.disk.files
      && wk.disk.total == ix.total + u.received
      && wk.ram == ram
      && g.cancelled && g.result.None?
      && !Delivers(e)
      && (r.options.hasCallback <==> |e| > 0 && e[|e| - 1] == ErrorCallback(Cancelled))
  {
    DoWorkFollowsOpen(r, ram, ix, env);
    var key := r.keys.inputKey.value;
    var u := FetchUrl(ix, key, r.options, false, env.url);
    var res := Resolve(ix, key, r.options.diskLookup, r.options.diskStore, true);
    assert res.slot.Success? && !res.slot.value.useCached && res.cacheKey < 0;
    assert Classify(env.url.status, env.url.contentLength, env.url.received, true) == Success(env.url.received);
  }

  /**
   * The worker branch keeps the chain of linked requests well formed, and
   * the follower it hands over to is a linked request of the arena.
   */
  lemma RunWorkKeepsChains(w: World, self: nat, env: WorkEnv)
    requires Valid(w) && self < |w.arena| && !w.arena[self].progress.done
    requires ChainsWellFormed(w.arena)
    ensures var st := RunWork(w, self, env);
      && ChainsWellFormed(st.world.arena)
      && (st.next.Done? && st.next.follower.Some? ==>
            st.next.follower.value < |w.arena| && st.world.arena[st.next.follower.value].progress.linked)
  {
    var r0 := ConfigureKeys(w.arena[self]);
    var a0 := w.arena[self := r0];
    ChainsDependOnLinks(w.arena, a0);
    var w0 := w.(arena := a0);
    if !r0.progress.linkingPassDone {
      assert RunWork(w, self, env) == FirstRun(w0, self, env);
      FirstRunKeepsChains(w0, self, env);
    } else {
      var st := Finish(w0, self, env);
      ChainsDependOnLinks(w0.arena, st.world.arena);
    }
  }

  /** The first run of a configured request keeps the chain well formed and hands over to a linked follower. */
  lemma FirstRunKeepsChains(w: World, self: nat, env: WorkEnv)
    requires Valid(w) && self < |w.arena| && !w.arena[self].progress.done
    requires !w.arena[self].progress.linkingPassDone
    requires ChainsWellFormed(w.arena)
    ensures var st := FirstRun(w, self, env);
      && ChainsWellFormed(st.world.arena)
      && (st.next.Done? && st.next.follower.Some? ==>
            st.next.follower.value < |w.arena| && st.world.arena[st.next.follower.value].progress.linked)
  {
    var p := LinkingPass(w.arena, w.registry, self);
    LinkingPassKeepsChains(w.arena, w.registry, self);
    var w1 := w.(arena := p.arena, registry := p.registry);
    if !p.arena[self].progress.linked {
      var st := Finish(w1, self, env);
      ChainsDependOnLinks(w1.arena, st.world.arena);
    }
  }

  /**
   * As written, a re-download into an existing entry that fails after the
   * 200 response leaves the entry reusable: the row keeps its non-zero
   * size, the file under its id (rewritten from its first byte when the
   * download opened it) is kept because the id is not temporary, and the
   * next lookup with disk lookup on serves that file.
   */
  lemma FailedRefetchIsReused(ix: Index, key: string, o: Options, cancelled: bool, env: UrlEnv)
    requires RowIdsValid(ix)
    requires !o.diskLookup && o.diskStore && !o.cachedOnly
    requires key in ix.rows && ix.rows[key].size != 0
    requires env.dirOk && env.status == HttpOk
    requires Classify(env.status, env.contentLength, env.received, cancelled || env.cancelDuringDownload).Failure?
    ensures var u := FetchUrl(ix, key, o, cancelled, env);
      && u.failure.Some? && u.cacheKey == ix.rows[key].id
      && u.index.rows == ix.rows && ix.rows[key].id in u.index.files
      && Reusable(u.index, key, o.(diskLookup := true))
      && Resolve(u.index, key, true, o.diskStore, true).slot == Success(Slot(ix.rows[key].id, true))
  {
  }
}

=== FILE: wrappers.dfy ===
/** Option and Result: the model's stand-ins for Java's `null` and for thrown exceptions. */
module Wrappers {

  /** A value that may be absent, as a nullable Java reference may be `null`. */
  datatype Option<+T> = None | Some(value: T)

  /** Either a value or the error a Java method would have thrown instead. */
  datatype Result<+R, +E> = Success(value: R) | Failure(error: E)
}
